=== FILE: README.md ===
# Minesweeper game engine in Dafny

A model of the game logic of the `Minesweeper` React component
(`minesweepergame/src/Minesweeper.tsx`). The model covers:

- generating a board: random mine placement, then adjacency counts;
- the reset;
- revealing a cell, including the stack-based flood fill from a zero cell, the
  losing reveal of every unflagged mine, and the win check;
- right-click flagging, with its mines-left counter.

The component keeps board, revealed mask, flag mask, `gameover`, `won` and
`minesLeft` as separate React state variables. Here they are one immutable
`Game.State`, and every handler is one state-to-state step.

Modules:

- `Grid`: coordinates, rectangular grids, single-cell writes, the eight
  neighbour offsets, and counting the true cells of a mask.
- `Boards`: `generateboard`.
  - `Place` does the placement by rejection sampling over an injected sequence
    of random draws.
  - `Numbered` and `NumberInPlace` do the counting pass.
  - `Consistent` states that every non-mine cell holds the size of the set of
    its in-bounds mine neighbours.
- `Flood`: `revealEmpty`, as `FloodFill` with its inner loop split into
  `OpenNeighbours` and `Visit`.
- `Game`: the state, `resetgame`, `revealcell`, `revealallonlose`, `checkWin`,
  `toggleflag`, and the invariant `Inv` that every step preserves.
  - `Inv` requires exactly `mines` mines.
  - It requires `minesLeft = mines - #flags`.
  - No cell is both flagged and revealed.
  - The game is won iff every safe cell is revealed.
  - The game is lost iff a mine is revealed.
- `AsWritten`: the win check as the source actually runs it (see Findings).

Two points in the source need care:

- **`checkWin()` at line 109 reads `revealed`.** Within the same click, that is
  still the mask from before the click. `Game.Settle` runs the win test on the
  updated mask instead: that is the evident intent. `AsWritten` models the
  code as written.
- **`revealallonlose` at line 148 copies the stale mask too.** This is proved
  harmless (`AsWritten.StaleLoseCopyIsHarmless`).

The source does not validate `mines`: there is no check that
`0 <= mines < rows * cols`. The operations accept any value. The invariant
`Inv` is established only when that holds.

## Model

| member | source | states |
|---|---|---|
| Boards.Place | minesweepergame/src/Minesweeper.tsx:50-60 | Placement stops as soon as `placed >= m`. On success it adds exactly `m - placed` mines to the grid. Every changed cell becomes a mine at one of the drawn coordinates. Draws landing on a mine are skipped. |
| Boards.PlaceDistinct | minesweepergame/src/Minesweeper.tsx:50-60 | Given exactly enough distinct draws, all on non-mine cells, placement succeeds. The mines are then the old mines plus exactly the drawn cells. |
| Boards.MinesAtIsMinesAround | minesweepergame/src/Minesweeper.tsx:63-81 | Scanning the eight `dirs` offsets with the bounds test counts exactly the set of in-bounds adjacent mine cells. No neighbour is missed or counted twice. |
| Boards.Numbered | minesweepergame/src/Minesweeper.tsx:69-84 | The counting pass keeps every mine a mine. Every other cell gets the number of its adjacent mines, which lies in 0..8. |
| Boards.CountNear | minesweepergame/src/Minesweeper.tsx:75-81 | The loop over `dirs` for one cell returns the number of adjacent in-bounds mines. |
| Boards.NumberInPlace | minesweepergame/src/Minesweeper.tsx:69-84 | Overwriting counts into the grid that is still being scanned gives the same board as counting from the placed layout. |
| Boards.Generate | minesweepergame/src/Minesweeper.tsx:45-86 | A generated board has the right shape. It has exactly `m` mines (none when `m <= 0`), all at drawn positions. Every non-mine cell holds its adjacency count. Values lie in -1..8. |
| Boards.GenerateAtDraws | minesweepergame/src/Minesweeper.tsx:45-86 | With `m` distinct in-bounds draws, generation succeeds. A cell is a mine exactly when it was drawn, so the board has exactly `m` mines. |
| Flood.Visit | minesweepergame/src/Minesweeper.tsx:121-128 | One offset: an in-bounds neighbour that is hidden and unflagged gets revealed. It is pushed exactly when it is a zero. The mask only grows and never gains a flag or a mine. |
| Flood.OpenNeighbours | minesweepergame/src/Minesweeper.tsx:118-130 | After the inner loop every in-bounds, unflagged neighbour of the popped cell is revealed. Every zero cell it revealed is on the stack. |
| Flood.FloodFill | minesweepergame/src/Minesweeper.tsx:112-133 | The flood fill terminates. It only adds to the mask and never reveals a flagged cell or a mine. Lower bound: every unflagged neighbour of the start, and of every zero cell it revealed, ends up revealed. Upper bound: there is a chain from the start through hidden, unflagged zero cells, each adjacent to an earlier one (the cells the stack ever holds), and every newly revealed cell is on that chain or next to it. |
| Flood.ClosureCoversEmptyBoard | minesweepergame/src/Minesweeper.tsx:112-133 | On a board with no mines, no flags and nothing revealed, a mask closed under the fill's rule reveals every cell. |
| Flood.FillDetermined | minesweepergame/src/Minesweeper.tsx:112-133 | The fill's postconditions pin its result down. Any two masks meeting them are equal: each contains the start and the old mask, reveals no flag, is closed under the fill rule, and is bounded by a chain. So the fill reveals exactly the least closed set. |
| Game.Reset | minesweepergame/src/Minesweeper.tsx:32-42 | Reset succeeds exactly when generation does. It gives a consistent board with nothing revealed or flagged and the game not over. The counter equals `mines`. The invariant holds when `0 <= mines < rows * cols`. |
| Game.WinReachedIffAllSafe | minesweepergame/src/Minesweeper.tsx:160-175 | On a board with exactly `mines` mines, counting `rows * cols - mines` revealed safe cells is the same as every safe cell being revealed. |
| Game.FreshNotWon | minesweepergame/src/Minesweeper.tsx:32-42 | A freshly reset game with at least one safe cell satisfies the invariant, so it is neither won nor lost. |
| Game.Settle | minesweepergame/src/Minesweeper.tsx:109 | After a safe reveal the new mask is stored and nothing else changes. On a board with exactly `mines` mines, the game becomes won and over exactly when every safe cell of the updated mask is revealed. When `mines < 0` or `mines > rows * cols`, the count test can never succeed and the click never wins. |
| Game.RevealMines | minesweepergame/src/Minesweeper.tsx:148-157 | The loop over all cells on a copy of the mask. It keeps every revealed cell and reveals every unflagged mine. Every cell it adds is an unflagged mine. The result equals `RevealAllOnLose`, the cell-by-cell formula `Lose` uses. |
| Game.Lose | minesweepergame/src/Minesweeper.tsx:98-102 | Clicking an unflagged mine ends the game. It reveals the unflagged mines and nothing else. No other field changes. From a game in progress satisfying `Inv`, the result satisfies `Inv` and is lost, not won. |
| Game.SettleKeepsInv | minesweepergame/src/Minesweeper.tsx:104-109 | A safe reveal that adds only unflagged non-mine cells keeps the invariant. |
| Game.StripZeroClick | minesweepergame/src/Minesweeper.tsx:112-133 | On the strip `0 1 * 1` with nothing revealed or flagged, `Reveal`'s guarantees for a click on the left end force exactly the two left cells to be revealed. The safe right end stays hidden, so the click does not win. |
| Game.Uncover | minesweepergame/src/Minesweeper.tsx:95-108 | A safe click reveals the clicked cell. A nonzero cell reveals only that cell. A zero cell floods, with both the closure lower bound and the chain upper bound measured against the pre-click mask. Only unflagged non-mine cells are added. |
| Game.Reveal | minesweepergame/src/Minesweeper.tsx:89-110 | The click is a no-op when the game is over or the cell is revealed or flagged. A mine loses: it reveals exactly the unflagged mines and sets `gameover`. A nonzero safe cell reveals only itself. A zero reveals exactly the least closed set, by the closure and chain bounds (see `Flood.FillDetermined`). On a board with exactly `mines` mines, a safe click wins iff every safe cell is then revealed. With `mines < 0` or `mines > rows * cols` a safe click never ends the game, since the safe count can never reach `rows * cols - mines` (line 169). On a board with no mines, a first click reveals everything. The invariant is preserved. Clicking the same cell again is a no-op. |
| Game.ToggleFlag | minesweepergame/src/Minesweeper.tsx:136-144 | A right-click is a no-op when the game is over or the cell is revealed. Otherwise it flips exactly that one flag. The counter becomes `mines` minus the number of flags, moving by exactly one. The invariant is preserved, in particular the lock between flags and revealed cells. |
| Game.ToggleTwice | minesweepergame/src/Minesweeper.tsx:139-143 | Right-clicking the same cell twice restores the flags and the counter exactly. |
| Game.FlagMany | minesweepergame/src/Minesweeper.tsx:143 | Flagging `k` distinct hidden cells lowers the counter by exactly `k`. Nothing caps the counter at zero, so it can go negative. |
| AsWritten.SettleAsWritten | minesweepergame/src/Minesweeper.tsx:109 | The end of the click as written stores the new mask but tests the pre-click mask. On a board with exactly `mines` mines, it sets `won` iff the game was already won or every safe cell was revealed before the click. |
| AsWritten.RevealAsWritten | minesweepergame/src/Minesweeper.tsx:89-110 | `revealcell` as written, from any `Sound` state and for any in-bounds click: on a board with exactly `mines` mines it never changes `won`. A click past the guard ends the game only on a mine. |
| AsWritten.StaleWinCheckMissesWin | minesweepergame/src/Minesweeper.tsx:109 | Concrete case: on a 1x2 board with the mine on the right, clicking the left cell wins under the corrected check but not as written. |
| AsWritten.StaleLoseCopyIsHarmless | minesweepergame/src/Minesweeper.tsx:148-157 | Starting the lose pass from the pre-click mask gives the same mask as starting from the updated one. |
| Grid.CountPut | minesweepergame/src/Minesweeper.tsx:143 | Changing one cell of a mask changes `flat().filter(Boolean).length` by exactly that cell's change. |
| Grid.CountMono | minesweepergame/src/Minesweeper.tsx:163-170 | A sub-mask counts no more than the mask containing it. Equal counts mean equal masks. |

## Left out

- The timer (`seconds`, lines 16 and 19-30): it is a clock effect and plays no part in the game logic.
- Rendering (lines 177-222): the JSX, emoji, CSS classes, the wrong-flag marker and `e.preventDefault()` are presentation.
- `Math.random`: the placement loop takes the random coordinates as the parameter `draws`. Its precondition is that every draw is in bounds, which `Math.floor(Math.random() * r)` guarantees.
- Boards.Place: when the draws run out, the result is `None`. For a grid with at least one cell, the source keeps drawing instead, and never stops when `m > rows * cols`. The model cannot express non-termination.
- Boards.Generate: an empty grid (`rows == 0` or `cols == 0`) has no cell to draw, so with `m > 0` the model returns `None`. The source differs. With `rows == 0`, `grid[row]` at line 55 is undefined and the call throws. With `cols == 0`, every draw lands in column 0 (line 54), outside the grid. The first draw on a row writes `-1` there, and every later draw on that row fails the test at line 55. So at most `rows` mines can be placed. Generation finishes with its mines off the board only when `m <= rows`; otherwise the loop at line 51 never ends.
- The props are JavaScript `number`s. The model takes `rows` and `cols` as `nat` and `mines` as `int`. A fractional `mines` is not modelled: the placement loop would place ⌈mines⌉ mines, and the win count `rows * cols - mines` could never be reached.
- Out-of-range clicks: handlers require an in-bounds cell. The UI only ever passes rendered coordinates.
- React state batching: each handler is one atomic step from the state at the start of the event. The two stale reads this causes are treated under Findings.
- The `mines` prop is not validated by the source, and the operations accept any value. `Game.Inv` describes only games with `0 <= mines < rows * cols`.
- Game.ToggleFlag: the counter is exact only for a state that already satisfies the counter formula. This is the formula the source always recomputes.

## Findings

| source | as written | input that shows it | evidently intended | confidence | as-written member | corrected member |
|---|---|---|---|---|---|---|
| minesweepergame/src/Minesweeper.tsx:109 | `checkWin()` counts over the `revealed` state, which during the click is still the pre-click mask, so the final safe click never triggers the win | 1x2 board `[[1, -1]]` with 1 mine, click (0,0): the only safe cell is revealed but `won` stays false | the win condition is evaluated on `newrev`, the mask after the click | not executed | AsWritten.SettleAsWritten / AsWritten.RevealAsWritten / AsWritten.StaleWinCheckMissesWin | Game.Settle |

=== FILE: aswritten.dfy ===
/**
 * The two places where `revealcell` reads React state that the same click has
 * already replaced, modelled as the source runs them.
 *
 * `checkWin()` (line 109) counts over `revealed`, which during the click still
 * holds the mask from before it, not `newrev`. A click that gets that far is on
 * a safe cell that the guard at line 91 found hidden, so in that mask at least
 * one safe cell is hidden and the count stays below `rows * cols - mines`: as
 * written, no click ever wins.
 *
 * `revealallonlose()` (line 148) likewise copies the pre-click `revealed`;
 * that one is harmless, since the clicked mine is unflagged and is revealed
 * again by the loop.
 */
module AsWritten {
  import opened Grid
  import opened Boards
  import opened Game

  /**
   * The end of `revealcell` as written: the new mask is stored but the win test
   * runs on the pre-click mask, so it fires exactly when the game was already
   * complete before the click.
   */
  function SettleAsWritten(s: State, newrev: Mask): (t: State)
    requires Shaped(s) && Rect(newrev, s.rows, s.cols)
    ensures t.rows == s.rows && t.cols == s.cols && t.mines == s.mines && t.board == s.board
    ensures t.revealed == newrev && t.flags == s.flags && t.minesLeft == s.minesLeft
    ensures Mines(s.board, s.rows, s.cols) == s.mines ==>
              (t.won <==> s.won || AllSafeRevealed(s.board, s.revealed, s.rows, s.cols)) &&
              (t.gameover <==> s.gameover || AllSafeRevealed(s.board, s.revealed, s.rows, s.cols))
  {
    var win := WinReached(s.board, s.revealed, s.rows, s.cols, s.mines);
    assert Mines(s.board, s.rows, s.cols) == s.mines ==>
             (win <==> AllSafeRevealed(s.board, s.revealed, s.rows, s.cols)) by {
      if Mines(s.board, s.rows, s.cols) == s.mines {
        WinReachedIffAllSafe(s.board, s.revealed, s.rows, s.cols, s.mines);
      }
    }
    if win then s.(revealed := newrev, won := true, gameover := true)
    else s.(revealed := newrev)
  }

  /**
   * `revealcell` as written. From any `Sound` state and for any in-bounds click,
   * on a board with the configured number of mines the click never sets `won`:
   * a safe click gets past the guard only on a hidden safe cell, which the
   * stale win test still sees hidden.
   */
  method RevealAsWritten(s: State, p: Pos) returns (t: State)
    requires Sound(s) && InBounds(s.rows, s.cols, p)
    ensures !Clickable(s, p) ==> t == s
    ensures t.board == s.board && t.flags == s.flags && Rect(t.revealed, s.rows, s.cols)
    ensures Mines(s.board, s.rows, s.cols) == s.mines ==> t.won == s.won
    ensures Clickable(s, p) && Mines(s.board, s.rows, s.cols) == s.mines ==> t.gameover == (At(s.board, p) == MINE)
  {
    if s.gameover || At(s.revealed, p) || At(s.flags, p) {
      return s;
    }
    if At(s.board, p) == MINE {
      // `revealallonlose` copies the stale pre-click mask
      t := s.(gameover := true, revealed := RevealAllOnLose(s.board, s.flags, s.revealed, s.rows, s.cols));
      return;
    }
    var newrev := Uncover(s, p);
    t := SettleAsWritten(s, newrev);
    assert Mines(s.board, s.rows, s.cols) == s.mines ==> !AllSafeRevealed(s.board, s.revealed, s.rows, s.cols) by {
      assert At(s.board, p) != MINE && !At(s.revealed, p);
    }
  }

  /**
   * A 1 by 2 board with its mine on the right: clicking the left cell reveals
   * the only safe cell. The intended win test fires; the one as written does
   * not (and by `RevealAsWritten` no later click fires it either).
   */
  lemma StaleWinCheckMissesWin()
    ensures var s := State(1, 2, 1, [[1, MINE]], [[false, false]], [[false, false]], false, false, 1);
            var newrev := [[true, false]];
            && Inv(s)
            && Settle(s, newrev).won
            && !SettleAsWritten(s, newrev).won
  {
    var s := State(1, 2, 1, [[1, MINE]], [[false, false]], [[false, false]], false, false, 1);
    var newrev := [[true, false]];
    var left, right := Pos(0, 0), Pos(0, 1);
    assert Cells(1, 2) == {left, right};
    assert MinesAround(s.board, 1, 2, left) == {right};
    assert MinesAround(s.board, 1, 2, right) == {};
    assert Consistent(s.board, 1, 2) by {
      forall q | InBounds(1, 2, q) && At(s.board, q) != MINE
        ensures At(s.board, q) == |MinesAround(s.board, 1, 2, q)|
      {
        assert q == left;
      }
    }
    var mm := MineMask(s.board, 1, 2);
    assert mm == [[false, true]] by {
      assert mm[0] == [false, true];
    }
    assert Count(mm) == 1;
    assert !AllSafeRevealed(s.board, s.revealed, 1, 2) by {
      assert At(s.board, left) != MINE && !At(s.revealed, left);
    }
    assert !SomeMineRevealed(s.board, s.revealed, 1, 2);
    assert Count(s.flags) == 0;
    assert AllSafeRevealed(s.board, newrev, 1, 2);
    assert Settle(s, newrev).won;
  }

  /**
   * The stale copy in `revealallonlose` loses nothing: starting from the
   * pre-click mask or from the mask with the clicked mine set gives the same
   * result, because that mine is unflagged.
   */
  lemma StaleLoseCopyIsHarmless(s: State, p: Pos)
    requires Shaped(s) && InBounds(s.rows, s.cols, p)
    requires !At(s.flags, p) && At(s.board, p) == MINE
    ensures RevealAllOnLose(s.board, s.flags, s.revealed, s.rows, s.cols) ==
            RevealAllOnLose(s.board, s.flags, Put(s.revealed, p, true), s.rows, s.cols)
  {
    var stale := RevealAllOnLose(s.board, s.flags, s.revealed, s.rows, s.cols);
    var clicked := RevealAllOnLose(s.board, s.flags, Put(s.revealed, p, true), s.rows, s.cols);
    forall i, j | 0 <= i < s.rows && 0 <= j < s.cols
      ensures stale[i][j] == clicked[i][j]
    {
      assert At(stale, Pos(i, j)) == At(clicked, Pos(i, j));
    }
    MaskExt(stale, clicked, s.rows, s.cols);
  }

}

=== FILE: boards.dfy ===
/**
 * Board generation (`generateboard`): mines are placed by rejection sampling
 * over a stream of random coordinates, then every non-mine cell receives the
 * number of mines among its up to eight neighbours.
 *
 * The random source is a parameter: `draws` is the sequence of coordinates
 * `(Math.floor(random * r), Math.floor(random * c))` the source would draw.
 */
module Boards {
  import opened Wrappers
  import opened Grid

  /** The cells of `b` that hold the mine sentinel. */
  function MineMask(b: Board, rows: nat, cols: nat): (m: Mask)
    requires Rect(b, rows, cols)
    ensures Rect(m, rows, cols)
    ensures forall i, j :: 0 <= i < rows && 0 <= j < cols ==> m[i][j] == (b[i][j] == MINE)
  {
    seq(rows, i requires 0 <= i < rows => seq(cols, j requires 0 <= j < cols => b[i][j] == MINE))
  }

  /** Number of mine cells on `b`. */
  function Mines(b: Board, rows: nat, cols: nat): nat
    requires Rect(b, rows, cols)
  {
    Count(MineMask(b, rows, cols))
  }

  /** Boards that agree on where the mines are have the same number of mines. */
  lemma SameMinesSameCount(a: Board, b: Board, rows: nat, cols: nat)
    requires Rect(a, rows, cols) && Rect(b, rows, cols)
    requires forall q :: InBounds(rows, cols, q) ==> (At(a, q) == MINE <==> At(b, q) == MINE)
    ensures Mines(a, rows, cols) == Mines(b, rows, cols)
  {
    var ma, mb := MineMask(a, rows, cols), MineMask(b, rows, cols);
    forall i, j | 0 <= i < rows && 0 <= j < cols
      ensures ma[i][j] == mb[i][j]
    {
      assert At(a, Pos(i, j)) == MINE <==> At(b, Pos(i, j)) == MINE;
    }
    MaskExt(ma, mb, rows, cols);
  }

  /** Turning one non-mine cell into a mine adds exactly one mine. */
  lemma MinesPut(g: Board, rows: nat, cols: nat, d: Pos)
    requires Rect(g, rows, cols) && InBounds(rows, cols, d) && At(g, d) != MINE
    ensures Rect(Put(g, d, MINE), rows, cols)
    ensures Mines(Put(g, d, MINE), rows, cols) == Mines(g, rows, cols) + 1
  {
    var h := Put(g, d, MINE);
    var before := MineMask(g, rows, cols);
    var after := MineMask(h, rows, cols);
    var expected := Put(before, d, true);
    forall i, j | 0 <= i < rows && 0 <= j < cols
      ensures after[i][j] == expected[i][j]
    {
      assert At(h, Pos(i, j)) == (if Pos(i, j) == d then MINE else At(g, Pos(i, j)));
      assert At(expected, Pos(i, j)) == (if Pos(i, j) == d then true else At(before, Pos(i, j)));
    }
    MaskExt(after, expected, rows, cols);
    CountPut(before, d, true);
  }

  // ---------------------------------------------------------------------------
  // Placement (source lines 47-60)

  /** All-zero grid of the source's `Array(r).fill(null).map(() => Array(c).fill(0))`. */
  function Zeros(rows: nat, cols: nat): (g: Board)
    ensures Rect(g, rows, cols)
    ensures Mines(g, rows, cols) == 0
  {
    var g := Fill(rows, cols, 0);
    CountNone(MineMask(g, rows, cols), rows, cols);
    g
  }

  /**
   * The placement loop `while (placed < m)`: each draw that lands on a cell
   * that is not yet a mine becomes a mine and bumps `placed`; a draw that lands
   * on a mine is rejected. `None` means the draws ran out first (the source
   * would keep drawing, forever when `m > r * c`).
   */
  function Place(grid: Board, rows: nat, cols: nat, placed: nat, m: int, draws: seq<Pos>): (r: Option<Board>)
    requires Rect(grid, rows, cols)
    requires forall k :: 0 <= k < |draws| ==> InBounds(rows, cols, draws[k])
    ensures placed >= m ==> r == Some(grid)
    ensures r.Some? ==> Rect(r.value, rows, cols)
    ensures r.Some? && placed < m ==> Mines(r.value, rows, cols) == Mines(grid, rows, cols) + (m - placed)
    ensures r.Some? ==> forall q :: InBounds(rows, cols, q) && At(r.value, q) != At(grid, q) ==>
                                      At(r.value, q) == MINE && q in draws
    decreases |draws|
  {
    if placed >= m then Some(grid)
    else if |draws| == 0 then None
    else
      var d := draws[0];
      assert InBounds(rows, cols, d);
      if At(grid, d) != MINE then
        MinesPut(grid, rows, cols, d);
        Place(Put(grid, d, MINE), rows, cols, placed + 1, m, draws[1..])
      else
        Place(grid, rows, cols, placed, m, draws[1..])
  }

  /**
   * When the draws are distinct cells that are not mines yet, exactly enough of
   * them to finish, placement succeeds and the new mines are exactly the draws.
   */
  lemma {:induction false} PlaceDistinct(grid: Board, rows: nat, cols: nat, placed: nat, m: int, draws: seq<Pos>)
    requires Rect(grid, rows, cols)
    requires forall k :: 0 <= k < |draws| ==> InBounds(rows, cols, draws[k]) && At(grid, draws[k]) != MINE
    requires forall k, l :: 0 <= k < l < |draws| ==> draws[k] != draws[l]
    requires placed + |draws| == m
    decreases |draws|
    ensures Place(grid, rows, cols, placed, m, draws).Some?
    ensures forall q :: InBounds(rows, cols, q) ==>
              (At(Place(grid, rows, cols, placed, m, draws).value, q) == MINE <==> At(grid, q) == MINE || q in draws)
  {
    if |draws| > 0 {
      var d := draws[0];
      var next := Put(grid, d, MINE);
      forall k | 0 <= k < |draws[1..]|
        ensures InBounds(rows, cols, draws[1..][k]) && At(next, draws[1..][k]) != MINE
      {
        assert draws[1..][k] == draws[k + 1] && draws[k + 1] != d;
      }
      PlaceDistinct(next, rows, cols, placed + 1, m, draws[1..]);
      assert Place(grid, rows, cols, placed, m, draws) == Place(next, rows, cols, placed + 1, m, draws[1..]);
      forall q | InBounds(rows, cols, q)
        ensures q in draws <==> q == d || q in draws[1..]
      {
        assert draws == [d] + draws[1..];
      }
    }
  }

  // ---------------------------------------------------------------------------
  // Adjacency counts (source lines 62-84)

  /** Every coordinate of a `rows` by `cols` grid. */
  function Cells(rows: nat, cols: nat): (s: set<Pos>)
    ensures forall q :: q in s <==> InBounds(rows, cols, q)
  {
    var s := set i, j | 0 <= i < rows && 0 <= j < cols :: Pos(i, j);
    assert forall q :: InBounds(rows, cols, q) ==> Pos(q.r, q.c) in s;
    s
  }

  /** The in-bounds cells adjacent to `p` that hold a mine: what a count must count. */
  function MinesAround(g: Board, rows: nat, cols: nat, p: Pos): set<Pos>
    requires Rect(g, rows, cols)
  {
    set q | q in Cells(rows, cols) && Adjacent(p, q) && At(g, q) == MINE
  }

  /**
   * The inner loop over `dirs`: how many offsets in `ds` lead from `p` to an
   * in-bounds mine.
   */
  function MinesAt(g: Board, rows: nat, cols: nat, p: Pos, ds: seq<(int, int)>): (n: nat)
    requires Rect(g, rows, cols)
    ensures n <= |ds|
  {
    if |ds| == 0 then 0
    else
      var q := Shift(p, ds[0]);
      Bit(InBounds(rows, cols, q) && At(g, q) == MINE) + MinesAt(g, rows, cols, p, ds[1..])
  }

  /** The adjacent mines whose offset from `p` is one of `ds`. */
  function MinesVia(g: Board, rows: nat, cols: nat, p: Pos, ds: seq<(int, int)>): set<Pos>
    requires Rect(g, rows, cols)
  {
    set q | q in MinesAround(g, rows, cols, p) && Offset(p, q) in ds
  }

  lemma {:induction false} MinesAtCountsVia(g: Board, rows: nat, cols: nat, p: Pos, ds: seq<(int, int)>)
    requires Rect(g, rows, cols)
    requires forall k :: 0 <= k < |ds| ==> ds[k] in Dirs
    requires forall k, l :: 0 <= k < l < |ds| ==> ds[k] != ds[l]
    ensures MinesAt(g, rows, cols, p, ds) == |MinesVia(g, rows, cols, p, ds)|
  {
    if |ds| == 0 {
      assert MinesVia(g, rows, cols, p, ds) == {};
    } else {
      var q0 := Shift(p, ds[0]);
      DirsAreTheNeighbours(p, q0);
      assert Offset(p, q0) == ds[0];
      MinesAtCountsVia(g, rows, cols, p, ds[1..]);
      var rest := MinesVia(g, rows, cols, p, ds[1..]);
      assert ds[0] !in ds[1..];
      assert q0 !in rest;
      forall q | q in MinesAround(g, rows, cols, p)
        ensures Offset(p, q) == ds[0] <==> q == q0
      {
      }
      assert ds == [ds[0]] + ds[1..];
      if InBounds(rows, cols, q0) && At(g, q0) == MINE {
        assert MinesVia(g, rows, cols, p, ds) == rest + {q0};
      } else {
        assert MinesVia(g, rows, cols, p, ds) == rest;
      }
    }
  }

  /** The loop over the eight offsets counts exactly the adjacent in-bounds mines. */
  lemma MinesAtIsMinesAround(g: Board, rows: nat, cols: nat, p: Pos)
    requires Rect(g, rows, cols)
    ensures MinesAt(g, rows, cols, p, Dirs) == |MinesAround(g, rows, cols, p)|
  {
    DirsAreTheNeighbours(p, p);
    MinesAtCountsVia(g, rows, cols, p, Dirs);
    forall q | q in MinesAround(g, rows, cols, p)
      ensures Offset(p, q) in Dirs
    {
      DirsAreTheNeighbours(p, q);
    }
    assert MinesVia(g, rows, cols, p, Dirs) == MinesAround(g, rows, cols, p);
  }

  lemma MinesAtEverywhere(g: Board, rows: nat, cols: nat)
    requires Rect(g, rows, cols)
    ensures forall q :: MinesAt(g, rows, cols, q, Dirs) == |MinesAround(g, rows, cols, q)|
  {
    forall q {
      MinesAtIsMinesAround(g, rows, cols, q);
    }
  }

  /** Every non-mine cell of `b` holds the number of mines adjacent to it. */
  ghost predicate Consistent(b: Board, rows: nat, cols: nat)
    requires Rect(b, rows, cols)
  {
    forall q :: InBounds(rows, cols, q) && At(b, q) != MINE ==> At(b, q) == |MinesAround(b, rows, cols, q)|
  }

  /** Boards that agree on where the mines are see the same mines around every cell. */
  lemma SameMinesSameAround(a: Board, b: Board, rows: nat, cols: nat, p: Pos)
    requires Rect(a, rows, cols) && Rect(b, rows, cols)
    requires forall q :: InBounds(rows, cols, q) ==> (At(a, q) == MINE <==> At(b, q) == MINE)
    ensures MinesAround(a, rows, cols, p) == MinesAround(b, rows, cols, p)
  {
  }

  /**
   * The counting pass over a placed grid. The source writes each count back
   * into the grid it is still scanning; that is harmless because a count is
   * never -1, so later cells see the same mines as in `layout`.
   */
  function Numbered(layout: Board, rows: nat, cols: nat): (b: Board)
    requires Rect(layout, rows, cols)
    ensures Rect(b, rows, cols)
    ensures forall q :: InBounds(rows, cols, q) ==> (At(b, q) == MINE <==> At(layout, q) == MINE)
    ensures forall q :: InBounds(rows, cols, q) && At(layout, q) != MINE ==>
              0 <= At(b, q) == |MinesAround(layout, rows, cols, q)| <= 8
  {
    MinesAtEverywhere(layout, rows, cols);
    seq(rows, i requires 0 <= i < rows => seq(cols, j requires 0 <= j < cols =>
      if layout[i][j] == MINE then MINE else MinesAt(layout, rows, cols, Pos(i, j), Dirs)))
  }

  /** The loop over `dirs` for one cell (source lines 75-81). */
  method CountNear(grid: Board, rows: nat, cols: nat, p: Pos) returns (count: nat)
    requires Rect(grid, rows, cols)
    ensures count == |MinesAround(grid, rows, cols, p)|
  {
    count := 0;
    for k := 0 to |Dirs|
      invariant count + MinesAt(grid, rows, cols, p, Dirs[k..]) == MinesAt(grid, rows, cols, p, Dirs)
    {
      assert Dirs[k..][1..] == Dirs[k + 1..];
      var q := Shift(p, Dirs[k]);
      if 0 <= q.r < rows && 0 <= q.c < cols && grid[q.r][q.c] == MINE {
        count := count + 1;
      }
    }
    MinesAtIsMinesAround(grid, rows, cols, p);
  }

  /**
   * The counting pass as the source runs it (lines 69-84), writing each count
   * into the grid it is still scanning. It computes exactly `Numbered`.
   */
  method NumberInPlace(layout: Board, rows: nat, cols: nat) returns (grid: Board)
    requires Rect(layout, rows, cols)
    ensures grid == Numbered(layout, rows, cols)
  {
    var want := Numbered(layout, rows, cols);
    grid := layout;
    for i := 0 to rows
      invariant Rect(grid, rows, cols)
      invariant forall q :: InBounds(rows, cols, q) ==> At(grid, q) == if q.r < i then At(want, q) else At(layout, q)
    {
      for j := 0 to cols
        invariant Rect(grid, rows, cols)
        invariant forall q :: InBounds(rows, cols, q) ==>
                    At(grid, q) == if q.r < i || (q.r == i && q.c < j) then At(want, q) else At(layout, q)
      {
        var p := Pos(i, j);
        if grid[i][j] != MINE {
          var count := CountNear(grid, rows, cols, p);
          SameMinesSameAround(grid, layout, rows, cols, p);
          grid := Put(grid, p, count);
        }
      }
    }
    GridExt(grid, want, rows, cols);
  }

  /**
   * `generateboard(r, c, m)`: `None` only when the draws run out before `m`
   * mines are placed.
   */
  function Generate(rows: nat, cols: nat, m: int, draws: seq<Pos>): (r: Option<Board>)
    requires forall k :: 0 <= k < |draws| ==> InBounds(rows, cols, draws[k])
    ensures m <= 0 ==> r.Some?
    ensures r.Some? ==> Rect(r.value, rows, cols) && Consistent(r.value, rows, cols)
    ensures r.Some? ==> Mines(r.value, rows, cols) == if m > 0 then m else 0
    ensures r.Some? ==> forall q :: InBounds(rows, cols, q) && At(r.value, q) == MINE ==> q in draws
    ensures r.Some? ==> forall q :: InBounds(rows, cols, q) ==> -1 <= At(r.value, q) <= 8
  {
    match Place(Zeros(rows, cols), rows, cols, 0, m, draws)
    case None => None
    case Some(layout) =>
      var b := Numbered(layout, rows, cols);
      SameMinesSameCount(b, layout, rows, cols);
      assert forall q :: MinesAround(b, rows, cols, q) == MinesAround(layout, rows, cols, q) by {
        forall q {
          SameMinesSameAround(b, layout, rows, cols, q);
        }
      }
      Some(b)
  }

  /**
   * Given `m` distinct in-bounds mine positions as the draws, the generated
   * board has its mines exactly there, hence exactly `m` of them.
   */
  lemma GenerateAtDraws(rows: nat, cols: nat, draws: seq<Pos>)
    requires forall k :: 0 <= k < |draws| ==> InBounds(rows, cols, draws[k])
    requires forall k, l :: 0 <= k < l < |draws| ==> draws[k] != draws[l]
    ensures Generate(rows, cols, |draws|, draws).Some?
    ensures Mines(Generate(rows, cols, |draws|, draws).value, rows, cols) == |draws|
    ensures forall q :: InBounds(rows, cols, q) ==>
              (At(Generate(rows, cols, |draws|, draws).value, q) == MINE <==> q in draws)
  {
    PlaceDistinct(Zeros(rows, cols), rows, cols, 0, |draws|, draws);
  }

}

=== FILE: flood.dfy ===
/**
 * The flood fill of `revealEmpty`: starting from a freshly revealed zero cell,
 * pop a cell off an explicit stack, reveal each in-bounds neighbour that is
 * neither revealed nor flagged, and push the revealed neighbours that are
 * zeros themselves.
 */
module Flood {
  import opened Grid
  import opened Boards

  /** Every in-bounds, unflagged neighbour of `x` is revealed in `out`. */
  ghost predicate Opened(flags: Mask, out: Mask, rows: nat, cols: nat, x: Pos)
    requires Rect(flags, rows, cols) && Rect(out, rows, cols)
  {
    forall k :: 0 <= k < |Dirs| && InBounds(rows, cols, Shift(x, Dirs[k])) && !At(flags, Shift(x, Dirs[k])) ==>
      At(out, Shift(x, Dirs[k]))
  }

  /** `q` is where the fill started or a cell it revealed itself. */
  ghost predicate Reached(rev: Mask, out: Mask, rows: nat, cols: nat, start: Pos, q: Pos)
    requires Rect(rev, rows, cols) && Rect(out, rows, cols) && InBounds(rows, cols, q)
  {
    q == start || (At(out, q) && !At(rev, q))
  }

  /** Every bit set in `a` is set in `b`. */
  ghost predicate Grows(a: Mask, b: Mask, rows: nat, cols: nat)
    requires Rect(a, rows, cols) && Rect(b, rows, cols)
  {
    forall q :: InBounds(rows, cols, q) && At(a, q) ==> At(b, q)
  }

  /** Every cell revealed in `out` but not in `rev` is neither flagged nor a mine. */
  ghost predicate Safe(board: Board, flags: Mask, rev: Mask, out: Mask, rows: nat, cols: nat)
    requires Rect(board, rows, cols) && Rect(flags, rows, cols) && Rect(rev, rows, cols) && Rect(out, rows, cols)
  {
    forall q :: InBounds(rows, cols, q) && At(out, q) && !At(rev, q) ==> !At(flags, q) && At(board, q) != MINE
  }

  /** The work-list holds distinct, revealed, reached zero cells. */
  ghost predicate StackOk(board: Board, rev: Mask, out: Mask, rows: nat, cols: nat, start: Pos, stack: seq<Pos>)
    requires Rect(board, rows, cols) && Rect(rev, rows, cols) && Rect(out, rows, cols)
  {
    && (forall i :: 0 <= i < |stack| ==>
          InBounds(rows, cols, stack[i]) && At(board, stack[i]) == 0 && At(out, stack[i]) &&
          Reached(rev, out, rows, cols, start, stack[i]))
    && (forall i, j :: 0 <= i < j < |stack| ==> stack[i] != stack[j])
  }

  /** `q` is an entry of `order` or adjacent to one. */
  ghost predicate Touches(order: seq<Pos>, q: Pos) {
    exists k :: 0 <= k < |order| && (order[k] == q || Adjacent(order[k], q))
  }

  /**
   * A derivation of the fill's expansion: `order` starts at `start`, and each
   * later entry is a hidden, unflagged zero cell adjacent to an earlier entry.
   * These are the cells the stack can ever hold.
   */
  ghost predicate Chain(board: Board, flags: Mask, rev: Mask, rows: nat, cols: nat, start: Pos, order: seq<Pos>)
    requires Rect(board, rows, cols) && Rect(flags, rows, cols) && Rect(rev, rows, cols)
  {
    && |order| > 0 && order[0] == start
    && (forall i :: 0 < i < |order| ==>
          InBounds(rows, cols, order[i]) && !At(rev, order[i]) && !At(flags, order[i]) && At(board, order[i]) == 0)
    && (forall i :: 0 < i < |order| ==> exists j :: 0 <= j < i && Adjacent(order[j], order[i]))
  }

  /** Every cell revealed in `out` but not in `rev` touches an entry of `order`. */
  ghost predicate Bounded(rev: Mask, out: Mask, rows: nat, cols: nat, order: seq<Pos>)
    requires Rect(rev, rows, cols) && Rect(out, rows, cols)
  {
    forall q :: InBounds(rows, cols, q) && At(out, q) && !At(rev, q) ==> Touches(order, q)
  }

  /**
   * The closure rule of the fill: every in-bounds, unflagged neighbour of the
   * start, and of every zero cell revealed in `out` but not in `rev`, is
   * revealed in `out`.
   */
  ghost predicate Closed(board: Board, flags: Mask, rev: Mask, out: Mask, rows: nat, cols: nat, start: Pos)
    requires Rect(board, rows, cols) && Rect(flags, rows, cols) && Rect(rev, rows, cols) && Rect(out, rows, cols)
  {
    forall z, n ::
      (InBounds(rows, cols, z) && (z == start || (At(out, z) && !At(rev, z))) && At(board, z) == 0 &&
       InBounds(rows, cols, n) && Adjacent(z, n) && !At(flags, n))
      ==> At(out, n)
  }

  /** The fill's ghost bookkeeping: `order` is a chain holding the stack and bounding `out`. */
  ghost predicate Tracked(board: Board, flags: Mask, rev: Mask, out: Mask, rows: nat, cols: nat, start: Pos,
                          stack: seq<Pos>, order: seq<Pos>)
    requires Rect(board, rows, cols) && Rect(flags, rows, cols) && Rect(rev, rows, cols) && Rect(out, rows, cols)
  {
    && Chain(board, flags, rev, rows, cols, start, order)
    && (forall i :: 0 <= i < |stack| ==> stack[i] in order)
    && Bounded(rev, out, rows, cols, order)
  }

  /** Every zero cell the fill reached and no longer holds on its stack has its neighbours opened. */
  ghost predicate AllOpened(board: Board, flags: Mask, rev: Mask, out: Mask, rows: nat, cols: nat, start: Pos,
                            stack: seq<Pos>)
    requires Rect(board, rows, cols) && Rect(flags, rows, cols) && Rect(rev, rows, cols) && Rect(out, rows, cols)
  {
    forall q ::
      (InBounds(rows, cols, q) && Reached(rev, out, rows, cols, start, q) && At(board, q) == 0 && q !in stack)
      ==> Opened(flags, out, rows, cols, q)
  }

  /**
   * What a pass over the neighbours of `x` does to the mask and the stack: it
   * only pushes, never pushes `x`, every cell it reveals is adjacent to `x`,
   * every zero it reveals is pushed, and every cell it pushes is a hidden,
   * unflagged neighbour of `x`.
   */
  ghost predicate Pass(board: Board, flags: Mask, rev: Mask, out: Mask, out': Mask, rows: nat, cols: nat, x: Pos,
                       stack: seq<Pos>, stack': seq<Pos>)
    requires Rect(board, rows, cols) && Rect(flags, rows, cols) && Rect(rev, rows, cols)
    requires Rect(out, rows, cols) && Rect(out', rows, cols)
  {
    && |stack| <= |stack'| && stack'[..|stack|] == stack && x !in stack'
    && (forall q :: InBounds(rows, cols, q) && At(out', q) && !At(out, q) ==> Adjacent(x, q))
    && (forall q :: InBounds(rows, cols, q) && At(out', q) && !At(out, q) && At(board, q) == 0 ==> q in stack')
    && (forall i :: |stack| <= i < |stack'| ==>
          InBounds(rows, cols, stack'[i]) && Adjacent(x, stack'[i]) && !At(rev, stack'[i]) && !At(flags, stack'[i]))
  }

  /** Two passes over the neighbours of the same cell make one. */
  lemma PassCompose(board: Board, flags: Mask, rev: Mask, a: Mask, b: Mask, c: Mask, rows: nat, cols: nat, x: Pos,
                    s0: seq<Pos>, s1: seq<Pos>, s2: seq<Pos>)
    requires Rect(board, rows, cols) && Rect(flags, rows, cols) && Rect(rev, rows, cols)
    requires Rect(a, rows, cols) && Rect(b, rows, cols) && Rect(c, rows, cols)
    requires Pass(board, flags, rev, a, b, rows, cols, x, s0, s1)
    requires Pass(board, flags, rev, b, c, rows, cols, x, s1, s2)
    ensures Pass(board, flags, rev, a, c, rows, cols, x, s0, s2)
  {
    assert s2[..|s0|] == s2[..|s1|][..|s0|];
    forall i | |s0| <= i < |s2|
      ensures InBounds(rows, cols, s2[i]) && Adjacent(x, s2[i]) && !At(rev, s2[i]) && !At(flags, s2[i])
    {
      if i < |s1| {
        assert s2[i] == s1[i];
      }
    }
    forall q | InBounds(rows, cols, q) && At(c, q) && !At(a, q) && At(board, q) == 0
      ensures q in s2
    {
      if At(b, q) {
        assert q in s1;
        assert s1 == s2[..|s1|];
      }
    }
  }

  lemma TouchesPrefix(order: seq<Pos>, order': seq<Pos>, q: Pos)
    requires |order| <= |order'| && order'[..|order|] == order
    requires Touches(order, q)
    ensures Touches(order', q)
  {
    var k :| 0 <= k < |order| && (order[k] == q || Adjacent(order[k], q));
    assert order'[k] == order[k];
  }

  /** Appending hidden, unflagged zero neighbours of an entry keeps a chain a chain. */
  lemma ChainExtend(board: Board, flags: Mask, rev: Mask, rows: nat, cols: nat, start: Pos,
                    order: seq<Pos>, x: Pos, pushed: seq<Pos>)
    requires Rect(board, rows, cols) && Rect(flags, rows, cols) && Rect(rev, rows, cols)
    requires Chain(board, flags, rev, rows, cols, start, order) && x in order
    requires forall i :: 0 <= i < |pushed| ==>
               InBounds(rows, cols, pushed[i]) && !At(rev, pushed[i]) && !At(flags, pushed[i]) &&
               At(board, pushed[i]) == 0 && Adjacent(x, pushed[i])
    ensures Chain(board, flags, rev, rows, cols, start, order + pushed)
  {
    var o := order + pushed;
    var j :| 0 <= j < |order| && order[j] == x;
    assert o[j] == x;
    forall i | 0 < i < |o|
      ensures InBounds(rows, cols, o[i]) && !At(rev, o[i]) && !At(flags, o[i]) && At(board, o[i]) == 0
      ensures exists j' :: 0 <= j' < i && Adjacent(o[j'], o[i])
    {
      if i < |order| {
        assert o[i] == order[i];
        var j' :| 0 <= j' < i && Adjacent(order[j'], order[i]);
        assert o[j'] == order[j'];
      } else {
        assert o[i] == pushed[i - |order|];
      }
    }
  }

  /**
   * One pop of the fill, seen through the chain: the cells pushed while
   * opening the neighbours of `x` extend the chain, the stack stays inside it,
   * and the cells revealed meanwhile, all adjacent to `x`, keep the mask bounded.
   */
  lemma TrackStep(board: Board, flags: Mask, rev: Mask, before: Mask, out: Mask, rows: nat, cols: nat, start: Pos,
                  order: seq<Pos>, full: seq<Pos>, x: Pos, stack0: seq<Pos>, stack: seq<Pos>)
    requires Rect(board, rows, cols) && Rect(flags, rows, cols) && Rect(rev, rows, cols)
    requires Rect(before, rows, cols) && Rect(out, rows, cols)
    requires |full| > 0 && x == full[|full| - 1] && stack0 == full[..|full| - 1]
    requires Tracked(board, flags, rev, before, rows, cols, start, full, order)
    requires Pass(board, flags, rev, before, out, rows, cols, x, stack0, stack)
    requires forall i :: 0 <= i < |stack| ==> InBounds(rows, cols, stack[i]) && At(board, stack[i]) == 0
    ensures Tracked(board, flags, rev, out, rows, cols, start, stack, order + stack[|stack0|..])
  {
    var pushed := stack[|stack0|..];
    var order' := order + pushed;
    assert x in order && forall i :: 0 <= i < |stack0| ==> stack0[i] in order by {
      assert forall i :: 0 <= i < |stack0| ==> stack0[i] == full[i];
      assert full[|full| - 1] == x;
    }
    ChainExtend(board, flags, rev, rows, cols, start, order, x, pushed);
    forall i | 0 <= i < |stack|
      ensures stack[i] in order'
    {
      if i < |stack0| {
        assert stack[i] == stack0[i];
      } else {
        assert stack[i] == pushed[i - |stack0|];
      }
    }
    forall q | InBounds(rows, cols, q) && At(out, q) && !At(rev, q)
      ensures Touches(order', q)
    {
      if At(before, q) {
        TouchesPrefix(order, order', q);
      } else {
        var j :| 0 <= j < |order| && order[j] == x;
        assert order'[j] == x;
      }
    }
  }

  /** On a consistent board a zero cell has no mine among its neighbours. */
  lemma ZeroNeighbourIsSafe(board: Board, rows: nat, cols: nat, x: Pos, k: nat)
    requires Rect(board, rows, cols) && Consistent(board, rows, cols)
    requires InBounds(rows, cols, x) && At(board, x) == 0
    requires k < |Dirs| && InBounds(rows, cols, Shift(x, Dirs[k]))
    ensures At(board, Shift(x, Dirs[k])) != MINE
  {
    var n := Shift(x, Dirs[k]);
    DirsAreTheNeighbours(x, n);
    assert At(board, n) == MINE ==> n in MinesAround(board, rows, cols, x);
  }

  lemma OpenedGrows(flags: Mask, a: Mask, b: Mask, rows: nat, cols: nat, x: Pos)
    requires Rect(flags, rows, cols) && Rect(a, rows, cols) && Rect(b, rows, cols)
    requires Grows(a, b, rows, cols)
    requires Opened(flags, a, rows, cols, x)
    ensures Opened(flags, b, rows, cols, x)
  {
  }

  /**
   * One iteration of the inner `for (const [dx, dy] of dirs)` loop: the
   * neighbour of `x` at offset `Dirs[k]` is revealed if it is in bounds,
   * hidden and unflagged, and pushed if it is a zero.
   */
  method Visit(board: Board, flags: Mask, rev: Mask, rows: nat, cols: nat, start: Pos,
               out: Mask, stack: seq<Pos>, x: Pos, k: nat)
    returns (out': Mask, stack': seq<Pos>)
    requires Rect(board, rows, cols) && Rect(flags, rows, cols) && Rect(rev, rows, cols) && Rect(out, rows, cols)
    requires Consistent(board, rows, cols)
    requires Grows(rev, out, rows, cols)
    requires Safe(board, flags, rev, out, rows, cols)
    requires StackOk(board, rev, out, rows, cols, start, stack)
    requires InBounds(rows, cols, x) && At(board, x) == 0 && At(out, x) && x !in stack
    requires k < |Dirs|
    ensures Rect(out', rows, cols)
    ensures Grows(out, out', rows, cols)
    ensures Safe(board, flags, rev, out', rows, cols)
    ensures StackOk(board, rev, out', rows, cols, start, stack')
    ensures Pass(board, flags, rev, out, out', rows, cols, x, stack, stack')
    ensures InBounds(rows, cols, Shift(x, Dirs[k])) && !At(flags, Shift(x, Dirs[k])) ==> At(out', Shift(x, Dirs[k]))
    ensures Count(out) <= Count(out')
    ensures stack' == stack || Count(out) < Count(out')
  {
    out', stack' := out, stack;
    var n := Shift(x, Dirs[k]);
    if InBounds(rows, cols, n) && !At(out, n) && !At(flags, n) {
      ZeroNeighbourIsSafe(board, rows, cols, x, k);
      DirsAreTheNeighbours(x, n);
      assert !At(rev, n) && n !in stack;
      CountPut(out, n, true);
      out' := Put(out, n, true);
      if At(board, n) == 0 {
        stack' := stack + [n];
      }
    }
  }

  /**
   * The whole inner loop for the popped zero cell `x`: afterwards every
   * in-bounds, unflagged neighbour of `x` is revealed, and every zero cell this
   * pass revealed has been pushed.
   */
  method OpenNeighbours(board: Board, flags: Mask, rev: Mask, rows: nat, cols: nat, start: Pos,
                        out: Mask, stack: seq<Pos>, x: Pos)
    returns (out': Mask, stack': seq<Pos>)
    requires Rect(board, rows, cols) && Rect(flags, rows, cols) && Rect(rev, rows, cols) && Rect(out, rows, cols)
    requires Consistent(board, rows, cols)
    requires Grows(rev, out, rows, cols)
    requires Safe(board, flags, rev, out, rows, cols)
    requires StackOk(board, rev, out, rows, cols, start, stack)
    requires InBounds(rows, cols, x) && At(board, x) == 0 && At(out, x) && x !in stack
    ensures Rect(out', rows, cols)
    ensures Grows(out, out', rows, cols)
    ensures Safe(board, flags, rev, out', rows, cols)
    ensures StackOk(board, rev, out', rows, cols, start, stack')
    // The next four clauses are `Pass(board, flags, rev, out, out', rows, cols, x, stack, stack')` unfolded.
    ensures |stack| <= |stack'| && stack'[..|stack|] == stack && x !in stack'
    ensures forall q :: InBounds(rows, cols, q) && At(out', q) && !At(out, q) ==> Adjacent(x, q)
    ensures forall q :: InBounds(rows, cols, q) && At(out', q) && !At(out, q) && At(board, q) == 0 ==> q in stack'
    ensures forall i :: |stack| <= i < |stack'| ==>
              InBounds(rows, cols, stack'[i]) && Adjacent(x, stack'[i]) && !At(rev, stack'[i]) && !At(flags, stack'[i])
    ensures Opened(flags, out', rows, cols, x)
    ensures Count(out) <= Count(out')
    ensures stack' == stack || Count(out) < Count(out')
  {
    out', stack' := out, stack;
    var k := 0;
    while k < |Dirs|
      invariant 0 <= k <= |Dirs|
      invariant Rect(out', rows, cols)
      invariant Grows(rev, out', rows, cols)
      invariant Grows(out, out', rows, cols)
      invariant Safe(board, flags, rev, out', rows, cols)
      invariant StackOk(board, rev, out', rows, cols, start, stack')
      invariant Pass(board, flags, rev, out, out', rows, cols, x, stack, stack')
      invariant At(out', x)
      invariant forall l :: 0 <= l < k && InBounds(rows, cols, Shift(x, Dirs[l])) && !At(flags, Shift(x, Dirs[l])) ==>
                  At(out', Shift(x, Dirs[l]))
      invariant Count(out) <= Count(out')
      invariant stack' == stack || Count(out) < Count(out')
    {
      ghost var prevOut, prevStack := out', stack';
      out', stack' := Visit(board, flags, rev, rows, cols, start, out', stack', x, k);
      PassCompose(board, flags, rev, out, prevOut, out', rows, cols, x, stack, prevStack, stack');
      forall l | 0 <= l < k + 1 && InBounds(rows, cols, Shift(x, Dirs[l])) && !At(flags, Shift(x, Dirs[l]))
        ensures At(out', Shift(x, Dirs[l]))
      {
        if l < k {
          assert At(prevOut, Shift(x, Dirs[l]));
        }
      }
      k := k + 1;
    }
  }

  /**
   * One pop keeps "every reached zero cell off the stack has its neighbours
   * opened": `x` has just been opened, the zero cells revealed meanwhile are
   * on the stack, and the rest were opened before and stay opened.
   */
  lemma OpenedStep(board: Board, flags: Mask, rev: Mask, before: Mask, out: Mask, rows: nat, cols: nat, start: Pos,
                   full: seq<Pos>, x: Pos, popped: seq<Pos>, stack: seq<Pos>)
    requires Rect(board, rows, cols) && Rect(flags, rows, cols) && Rect(rev, rows, cols)
    requires Rect(before, rows, cols) && Rect(out, rows, cols)
    requires Grows(before, out, rows, cols)
    requires |full| > 0 && x == full[|full| - 1] && popped == full[..|full| - 1]
    requires AllOpened(board, flags, rev, before, rows, cols, start, full)
    requires Pass(board, flags, rev, before, out, rows, cols, x, popped, stack)
    requires Opened(flags, out, rows, cols, x)
    ensures AllOpened(board, flags, rev, out, rows, cols, start, stack)
  {
    assert full == popped + [x];
    forall q | InBounds(rows, cols, q) && Reached(rev, out, rows, cols, start, q) && At(board, q) == 0 && q !in stack
      ensures Opened(flags, out, rows, cols, q)
    {
      if q != x {
        assert Reached(rev, before, rows, cols, start, q);
        OpenedGrows(flags, before, out, rows, cols, q);
      }
    }
  }

  /** Once every reached zero cell has its neighbours opened, the mask is closed under the fill rule. */
  lemma OpenedIsClosed(board: Board, flags: Mask, rev: Mask, out: Mask, rows: nat, cols: nat, start: Pos)
    requires Rect(board, rows, cols) && Rect(flags, rows, cols) && Rect(rev, rows, cols) && Rect(out, rows, cols)
    requires AllOpened(board, flags, rev, out, rows, cols, start, [])
    ensures Closed(board, flags, rev, out, rows, cols, start)
  {
    forall z, n | InBounds(rows, cols, z) && (z == start || (At(out, z) && !At(rev, z))) && At(board, z) == 0 &&
                  InBounds(rows, cols, n) && Adjacent(z, n) && !At(flags, n)
      ensures At(out, n)
    {
      DirsAreTheNeighbours(z, n);
      var k :| 0 <= k < |Dirs| && Dirs[k] == Offset(z, n);
      assert Shift(z, Dirs[k]) == n;
      assert Reached(rev, out, rows, cols, start, z);
    }
  }

  /**
   * `revealEmpty(r, c, newrev)`. Only sets revealed bits; never reveals a
   * flagged cell or a mine; and on exit every in-bounds, unflagged neighbour of
   * every zero cell the fill reached is revealed. Each cell is pushed at most
   * once (it is revealed when pushed), so the number of hidden cells, then the
   * stack height, decreases.
   */
  method FloodFill(board: Board, flags: Mask, rev: Mask, rows: nat, cols: nat, start: Pos) returns (out: Mask)
    requires Rect(board, rows, cols) && Rect(flags, rows, cols) && Rect(rev, rows, cols)
    requires Consistent(board, rows, cols)
    requires InBounds(rows, cols, start) && At(board, start) == 0 && At(rev, start)
    ensures Rect(out, rows, cols)
    ensures forall q :: InBounds(rows, cols, q) && At(rev, q) ==> At(out, q)
    ensures forall q :: InBounds(rows, cols, q) && At(out, q) && !At(rev, q) ==>
              !At(flags, q) && At(board, q) != MINE
    ensures forall z, n ::
              (InBounds(rows, cols, z) && (z == start || (At(out, z) && !At(rev, z))) && At(board, z) == 0 &&
               InBounds(rows, cols, n) && Adjacent(z, n) && !At(flags, n))
              ==> At(out, n)
    ensures exists order :: Chain(board, flags, rev, rows, cols, start, order) && Bounded(rev, out, rows, cols, order)
  {
    out := rev;
    var stack := [start];
    ghost var order := [start];
    CountBound(out, rows, cols);
    while |stack| > 0
      invariant Rect(out, rows, cols)
      invariant Count(out) <= rows * cols
      invariant Grows(rev, out, rows, cols)
      invariant Safe(board, flags, rev, out, rows, cols)
      invariant StackOk(board, rev, out, rows, cols, start, stack)
      invariant AllOpened(board, flags, rev, out, rows, cols, start, stack)
      invariant Tracked(board, flags, rev, out, rows, cols, start, stack, order)
      decreases rows * cols - Count(out), |stack|
    {
      var x := stack[|stack| - 1];
      ghost var full, before := stack, out;
      stack := stack[..|stack| - 1];
      ghost var popped := stack;
      out, stack := OpenNeighbours(board, flags, rev, rows, cols, start, out, stack, x);
      TrackStep(board, flags, rev, before, out, rows, cols, start, order, full, x, popped, stack);
      order := order + stack[|popped|..];
      CountBound(out, rows, cols);
      OpenedStep(board, flags, rev, before, out, rows, cols, start, full, x, popped, stack);
    }
    OpenedIsClosed(board, flags, rev, out, rows, cols, start);
    assert Chain(board, flags, rev, rows, cols, start, order) && Bounded(rev, out, rows, cols, order);
  }

  function Abs(x: int): nat {
    if x < 0 then -x else x
  }

  /** Number of king moves between two cells. */
  function Distance(p: Pos, q: Pos): nat {
    if Abs(q.r - p.r) < Abs(q.c - p.c) then Abs(q.c - p.c) else Abs(q.r - p.r)
  }

  function Toward(from: int, to: int): int {
    if from < to then from + 1 else if from > to then from - 1 else from
  }

  /**
   * On a board without mines or flags and with nothing revealed beforehand,
   * a mask that is closed in the sense of `FloodFill`'s last postcondition and
   * contains the start holds every cell at king distance `d` from it.
   */
  lemma {:induction false} ClosureReaches(board: Board, flags: Mask, rev: Mask, out: Mask, rows: nat, cols: nat,
                                          start: Pos, q: Pos, d: nat)
    requires Rect(board, rows, cols) && Rect(flags, rows, cols) && Rect(rev, rows, cols) && Rect(out, rows, cols)
    requires InBounds(rows, cols, start) && At(out, start)
    requires forall c :: InBounds(rows, cols, c) ==> At(board, c) == 0 && !At(flags, c) && !At(rev, c)
    requires forall z, n ::
               (InBounds(rows, cols, z) && (z == start || (At(out, z) && !At(rev, z))) && At(board, z) == 0 &&
                InBounds(rows, cols, n) && Adjacent(z, n) && !At(flags, n))
               ==> At(out, n)
    requires InBounds(rows, cols, q) && Distance(start, q) == d
    ensures At(out, q)
    decreases d
  {
    if d > 0 {
      var z := Pos(Toward(q.r, start.r), Toward(q.c, start.c));
      assert Adjacent(z, q);
      ClosureReaches(board, flags, rev, out, rows, cols, start, z, d - 1);
      assert z == start || (At(out, z) && !At(rev, z));
    } else {
      assert q == start;
    }
  }

  /** On an empty board the closure reaches everything: one click opens the whole grid. */
  lemma ClosureCoversEmptyBoard(board: Board, flags: Mask, rev: Mask, out: Mask, rows: nat, cols: nat, start: Pos)
    requires Rect(board, rows, cols) && Rect(flags, rows, cols) && Rect(rev, rows, cols) && Rect(out, rows, cols)
    requires InBounds(rows, cols, start) && At(out, start)
    requires forall c :: InBounds(rows, cols, c) ==> At(board, c) == 0 && !At(flags, c) && !At(rev, c)
    requires forall z, n ::
               (InBounds(rows, cols, z) && (z == start || (At(out, z) && !At(rev, z))) && At(board, z) == 0 &&
                InBounds(rows, cols, n) && Adjacent(z, n) && !At(flags, n))
               ==> At(out, n)
    ensures forall q :: InBounds(rows, cols, q) ==> At(out, q)
  {
    forall q | InBounds(rows, cols, q)
      ensures At(out, q)
    {
      ClosureReaches(board, flags, rev, out, rows, cols, start, q, Distance(start, q));
    }
  }

  /**
   * Every entry of a chain lies inside any closed mask that contains `rev`
   * and the start:
   * it is a zero cell that is the start or was revealed by that mask.
   */
  lemma {:induction false} ChainInside(board: Board, flags: Mask, rev: Mask, b: Mask, rows: nat, cols: nat,
                                       start: Pos, order: seq<Pos>, k: nat)
    requires Rect(board, rows, cols) && Rect(flags, rows, cols) && Rect(rev, rows, cols) && Rect(b, rows, cols)
    requires InBounds(rows, cols, start) && At(board, start) == 0 && At(b, start)
    requires Grows(rev, b, rows, cols) && Closed(board, flags, rev, b, rows, cols, start)
    requires Chain(board, flags, rev, rows, cols, start, order)
    requires k < |order|
    ensures InBounds(rows, cols, order[k]) && At(b, order[k]) && At(board, order[k]) == 0
    ensures order[k] == start || !At(rev, order[k])
    decreases k
  {
    if k > 0 {
      var j :| 0 <= j < k && Adjacent(order[j], order[k]);
      ChainInside(board, flags, rev, b, rows, cols, start, order, j);
    }
  }

  /** A mask bounded by a chain lies inside every closed mask that contains `rev` and the start. */
  lemma FillWithin(board: Board, flags: Mask, rev: Mask, a: Mask, b: Mask, rows: nat, cols: nat,
                   start: Pos, order: seq<Pos>)
    requires Rect(board, rows, cols) && Rect(flags, rows, cols) && Rect(rev, rows, cols)
    requires Rect(a, rows, cols) && Rect(b, rows, cols)
    requires InBounds(rows, cols, start) && At(board, start) == 0 && At(b, start)
    requires Grows(rev, b, rows, cols) && Closed(board, flags, rev, b, rows, cols, start)
    requires forall q :: InBounds(rows, cols, q) && At(a, q) && !At(rev, q) ==> !At(flags, q)
    requires Chain(board, flags, rev, rows, cols, start, order) && Bounded(rev, a, rows, cols, order)
    ensures forall i, j :: 0 <= i < rows && 0 <= j < cols ==> a[i][j] ==> b[i][j]
  {
    forall i, j | 0 <= i < rows && 0 <= j < cols && a[i][j]
      ensures b[i][j]
    {
      var q := Pos(i, j);
      if !At(rev, q) {
        assert Touches(order, q);
        var k :| 0 <= k < |order| && (order[k] == q || Adjacent(order[k], q));
        ChainInside(board, flags, rev, b, rows, cols, start, order, k);
      }
      assert At(b, q);
    }
  }

  /**
   * The postconditions of `FloodFill` determine its result: two masks that
   * both contain `rev` and the start, reveal no flag, are closed under the
   * fill's rule and are bounded by a chain from `start` are equal. So the fill reveals exactly
   * the least closed mask, no more and no less.
   */
  lemma FillDetermined(board: Board, flags: Mask, rev: Mask, a: Mask, b: Mask, rows: nat, cols: nat, start: Pos)
    requires Rect(board, rows, cols) && Rect(flags, rows, cols) && Rect(rev, rows, cols)
    requires Rect(a, rows, cols) && Rect(b, rows, cols)
    requires InBounds(rows, cols, start) && At(board, start) == 0 && At(a, start) && At(b, start)
    requires Grows(rev, a, rows, cols) && Grows(rev, b, rows, cols)
    requires forall q :: InBounds(rows, cols, q) && At(a, q) && !At(rev, q) ==> !At(flags, q)
    requires forall q :: InBounds(rows, cols, q) && At(b, q) && !At(rev, q) ==> !At(flags, q)
    requires Closed(board, flags, rev, a, rows, cols, start) && Closed(board, flags, rev, b, rows, cols, start)
    requires exists order :: Chain(board, flags, rev, rows, cols, start, order) && Bounded(rev, a, rows, cols, order)
    requires exists order :: Chain(board, flags, rev, rows, cols, start, order) && Bounded(rev, b, rows, cols, order)
    ensures a == b
  {
    var oa :| Chain(board, flags, rev, rows, cols, start, oa) && Bounded(rev, a, rows, cols, oa);
    var ob :| Chain(board, flags, rev, rows, cols, start, ob) && Bounded(rev, b, rows, cols, ob);
    FillWithin(board, flags, rev, a, b, rows, cols, start, oa);
    FillWithin(board, flags, rev, b, a, rows, cols, start, ob);
    MaskExt(a, b, rows, cols);
  }

}

=== FILE: game.dfy ===
/**
 * The game state machine of the Minesweeper component: the state record and
 * `resetgame`, `revealcell` (with `revealallonlose` and `checkWin`) and
 * `toggleflag`, each as one atomic state-to-state step.
 *
 * The component keeps these as separate React state variables; here they are
 * one immutable `State`, replaced wholesale by every operation.
 */
module Game {
  import opened Wrappers
  import opened Grid
  import opened Boards
  import opened Flood

  datatype State = State(
    rows: nat,
    cols: nat,
    mines: int,        // the `mines` prop: how many mines were asked for
    board: Board,
    revealed: Mask,
    flags: Mask,
    gameover: bool,
    won: bool,
    minesLeft: int)    // the counter shown in the header

  /** The three grids have the configured shape. */
  predicate Shaped(s: State) {
    Rect(s.board, s.rows, s.cols) && Rect(s.revealed, s.rows, s.cols) && Rect(s.flags, s.rows, s.cols)
  }

  /** Shaped, and every non-mine cell holds its adjacency count, as `generateboard` makes it. */
  ghost predicate Sound(s: State) {
    Shaped(s) && Consistent(s.board, s.rows, s.cols)
  }

  ghost predicate AllSafeRevealed(board: Board, revealed: Mask, rows: nat, cols: nat)
    requires Rect(board, rows, cols) && Rect(revealed, rows, cols)
  {
    forall q :: InBounds(rows, cols, q) && At(board, q) != MINE ==> At(revealed, q)
  }

  ghost predicate SomeMineRevealed(board: Board, revealed: Mask, rows: nat, cols: nat)
    requires Rect(board, rows, cols) && Rect(revealed, rows, cols)
  {
    exists q :: InBounds(rows, cols, q) && At(board, q) == MINE && At(revealed, q)
  }

  /** A flag locks its cell: no cell is both flagged and revealed. */
  ghost predicate FlagsLock(revealed: Mask, flags: Mask, rows: nat, cols: nat)
    requires Rect(revealed, rows, cols) && Rect(flags, rows, cols)
  {
    forall q :: InBounds(rows, cols, q) ==> !(At(revealed, q) && At(flags, q))
  }

  /**
   * What holds of every state that `Reset`, `Reveal` and `ToggleFlag` reach
   * from a reset with a sensible configuration (`0 <= mines < rows * cols`),
   * with the win test run on the post-click mask (the code as written is
   * modelled in `AsWritten`, and its states can leave this): the board has exactly
   * `mines` mines, the counter agrees with the flags, flags lock their cells,
   * the game is won exactly when every safe cell is revealed, and lost exactly
   * when a mine is revealed.
   */
  ghost predicate Inv(s: State) {
    && Sound(s)
    && 0 <= s.mines < s.rows * s.cols
    && Mines(s.board, s.rows, s.cols) == s.mines
    && s.minesLeft == s.mines - Count(s.flags)
    && FlagsLock(s.revealed, s.flags, s.rows, s.cols)
    && (s.won ==> s.gameover)
    && (s.won <==> AllSafeRevealed(s.board, s.revealed, s.rows, s.cols))
    && (s.gameover && !s.won <==> SomeMineRevealed(s.board, s.revealed, s.rows, s.cols))
  }

  // ---------------------------------------------------------------------------
  // resetgame (source lines 32-42)

  /**
   * `resetgame()`: a fresh board from `generateboard`, nothing revealed or
   * flagged, the game in progress and the counter at `mines`. `None` only when
   * the random draws run out before every mine is placed.
   */
  function Reset(rows: nat, cols: nat, mines: int, draws: seq<Pos>): (r: Option<State>)
    requires forall k :: 0 <= k < |draws| ==> InBounds(rows, cols, draws[k])
    ensures r.Some? <==> Generate(rows, cols, mines, draws).Some?
    ensures r.Some? ==>
              && r.value.rows == rows && r.value.cols == cols && r.value.mines == mines
              && Sound(r.value)
              && !r.value.gameover && !r.value.won && r.value.minesLeft == mines
              && (forall q :: InBounds(rows, cols, q) ==> !At(r.value.revealed, q) && !At(r.value.flags, q))
    ensures r.Some? && 0 <= mines < rows * cols ==> Inv(r.value)
  {
    match Generate(rows, cols, mines, draws)
    case None => None
    case Some(board) =>
      var s := State(rows, cols, mines, board, Fill(rows, cols, false), Fill(rows, cols, false), false, false, mines);
      CountNone(s.flags, rows, cols);
      assert 0 <= mines < rows * cols ==> Inv(s) by {
        if 0 <= mines < rows * cols {
          FreshNotWon(s);
        }
      }
      Some(s)
  }

  // ---------------------------------------------------------------------------
  // checkWin (source lines 160-175)

  /** The cells `checkWin` counts: non-mine and revealed. */
  function SafeRevealedMask(board: Board, revealed: Mask, rows: nat, cols: nat): (m: Mask)
    requires Rect(board, rows, cols) && Rect(revealed, rows, cols)
    ensures Rect(m, rows, cols)
    ensures forall i, j :: 0 <= i < rows && 0 <= j < cols ==> m[i][j] == (board[i][j] != MINE && revealed[i][j])
  {
    seq(rows, i requires 0 <= i < rows => seq(cols, j requires 0 <= j < cols => board[i][j] != MINE && revealed[i][j]))
  }

  /** `checkWin`'s test: the revealed non-mine cells number `rows * cols - mines`. */
  function WinReached(board: Board, revealed: Mask, rows: nat, cols: nat, mines: int): bool
    requires Rect(board, rows, cols) && Rect(revealed, rows, cols)
  {
    Count(SafeRevealedMask(board, revealed, rows, cols)) == rows * cols - mines
  }

  /**
   * On a board with exactly `mines` mines, `checkWin`'s count test holds
   * exactly when every non-mine cell is revealed.
   */
  lemma WinReachedIffAllSafe(board: Board, revealed: Mask, rows: nat, cols: nat, mines: int)
    requires Rect(board, rows, cols) && Rect(revealed, rows, cols)
    requires Mines(board, rows, cols) == mines
    ensures WinReached(board, revealed, rows, cols, mines) <==> AllSafeRevealed(board, revealed, rows, cols)
  {
    var mineMask := MineMask(board, rows, cols);
    var safe := seq(rows, i requires 0 <= i < rows => seq(cols, j requires 0 <= j < cols => board[i][j] != MINE));
    var counted := SafeRevealedMask(board, revealed, rows, cols);
    CountComplement(safe, mineMask, rows, cols);
    CountMono(counted, safe, rows, cols);
    if WinReached(board, revealed, rows, cols, mines) {
      assert counted == safe;
      forall q | InBounds(rows, cols, q) && At(board, q) != MINE
        ensures At(revealed, q)
      {
        assert safe[q.r][q.c];
      }
    }
    if AllSafeRevealed(board, revealed, rows, cols) {
      forall i, j | 0 <= i < rows && 0 <= j < cols
        ensures counted[i][j] == safe[i][j]
      {
        assert At(board, Pos(i, j)) != MINE ==> At(revealed, Pos(i, j));
      }
      MaskExt(counted, safe, rows, cols);
    }
  }

  /** A fresh game with at least one safe cell is not won yet. */
  lemma FreshNotWon(s: State)
    requires Sound(s) && !s.gameover && !s.won
    requires 0 <= s.mines < s.rows * s.cols && Mines(s.board, s.rows, s.cols) == s.mines
    requires forall q :: InBounds(s.rows, s.cols, q) ==> !At(s.revealed, q) && !At(s.flags, q)
    requires s.minesLeft == s.mines
    ensures Inv(s)
  {
    var counted := SafeRevealedMask(s.board, s.revealed, s.rows, s.cols);
    forall i, j | 0 <= i < s.rows && 0 <= j < s.cols
      ensures !counted[i][j]
    {
      assert !At(s.revealed, Pos(i, j));
    }
    CountNone(counted, s.rows, s.cols);
    WinReachedIffAllSafe(s.board, s.revealed, s.rows, s.cols, s.mines);
    forall i, j | 0 <= i < s.rows && 0 <= j < s.cols
      ensures !s.flags[i][j]
    {
      assert !At(s.flags, Pos(i, j));
    }
    CountNone(s.flags, s.rows, s.cols);
  }

  /**
   * The end of `revealcell` for a non-mine cell: the updated mask `newrev` is
   * stored and the win test runs. The source's `checkWin` reads `revealed`,
   * which inside the same click still holds the pre-click mask; this model
   * deliberately tests `newrev`, the evident intent (see `AsWritten`).
   */
  function Settle(s: State, newrev: Mask): (t: State)
    requires Shaped(s) && Rect(newrev, s.rows, s.cols)
    ensures t.rows == s.rows && t.cols == s.cols && t.mines == s.mines && t.board == s.board
    ensures t.flags == s.flags && t.minesLeft == s.minesLeft && t.revealed == newrev
    ensures s.won ==> t.won
    ensures s.gameover ==> t.gameover
    ensures Mines(s.board, s.rows, s.cols) == s.mines ==>
              (t.won <==> s.won || AllSafeRevealed(s.board, newrev, s.rows, s.cols)) &&
              (t.gameover <==> s.gameover || AllSafeRevealed(s.board, newrev, s.rows, s.cols))
    ensures s.mines < 0 || s.mines > s.rows * s.cols ==> t.won == s.won && t.gameover == s.gameover
  {
    var win := WinReached(s.board, newrev, s.rows, s.cols, s.mines);
    assert s.mines < 0 || s.mines > s.rows * s.cols ==> !win by {
      CountBound(SafeRevealedMask(s.board, newrev, s.rows, s.cols), s.rows, s.cols);
    }
    assert Mines(s.board, s.rows, s.cols) == s.mines ==>
             (win <==> AllSafeRevealed(s.board, newrev, s.rows, s.cols)) by {
      if Mines(s.board, s.rows, s.cols) == s.mines {
        WinReachedIffAllSafe(s.board, newrev, s.rows, s.cols, s.mines);
      }
    }
    if win then s.(revealed := newrev, won := true, gameover := true)
    else s.(revealed := newrev)
  }

  // ---------------------------------------------------------------------------
  // revealallonlose (source lines 146-158)

  /** `revealallonlose`: every mine that is not flagged is revealed as well. */
  function RevealAllOnLose(board: Board, flags: Mask, revealed: Mask, rows: nat, cols: nat): (out: Mask)
    requires Rect(board, rows, cols) && Rect(flags, rows, cols) && Rect(revealed, rows, cols)
    ensures Rect(out, rows, cols)
    ensures forall q :: InBounds(rows, cols, q) ==>
              At(out, q) == (At(revealed, q) || (At(board, q) == MINE && !At(flags, q)))
  {
    seq(rows, i requires 0 <= i < rows => seq(cols, j requires 0 <= j < cols =>
      revealed[i][j] || (board[i][j] == MINE && !flags[i][j])))
  }

  /**
   * The loop of `revealallonlose` (lines 150-156), run on a copy of the mask:
   * it sets the bit of every unflagged mine, one cell at a time, and the result
   * is `RevealAllOnLose`.
   */
  method RevealMines(board: Board, flags: Mask, revealed: Mask, rows: nat, cols: nat) returns (newrev: Mask)
    requires Rect(board, rows, cols) && Rect(flags, rows, cols) && Rect(revealed, rows, cols)
    ensures Rect(newrev, rows, cols)
    ensures forall q :: InBounds(rows, cols, q) && At(revealed, q) ==> At(newrev, q)
    ensures forall q :: InBounds(rows, cols, q) && At(board, q) == MINE && !At(flags, q) ==> At(newrev, q)
    ensures forall q :: InBounds(rows, cols, q) && At(newrev, q) && !At(revealed, q) ==>
              At(board, q) == MINE && !At(flags, q)
    ensures newrev == RevealAllOnLose(board, flags, revealed, rows, cols)
  {
    newrev := revealed;
    for i := 0 to rows
      invariant Rect(newrev, rows, cols)
      invariant forall q :: InBounds(rows, cols, q) ==>
                  At(newrev, q) == (At(revealed, q) || (q.r < i && At(board, q) == MINE && !At(flags, q)))
    {
      for j := 0 to cols
        invariant Rect(newrev, rows, cols)
        invariant forall q :: InBounds(rows, cols, q) ==>
                    At(newrev, q) == (At(revealed, q) ||
                                      ((q.r < i || (q.r == i && q.c < j)) && At(board, q) == MINE && !At(flags, q)))
      {
        if board[i][j] == MINE && !flags[i][j] {
          newrev := Put(newrev, Pos(i, j), true);
        }
      }
    }
    GridExt(newrev, RevealAllOnLose(board, flags, revealed, rows, cols), rows, cols);
  }

  /** The losing branch of `revealcell`: the click on mine `p`. */
  function Lose(s: State, p: Pos): (t: State)
    requires Shaped(s) && InBounds(s.rows, s.cols, p)
    requires !At(s.flags, p) && At(s.board, p) == MINE
    ensures t == s.(gameover := true, revealed := t.revealed)
    ensures Rect(t.revealed, s.rows, s.cols)
    ensures forall q :: InBounds(s.rows, s.cols, q) ==>
              At(t.revealed, q) == (At(s.revealed, q) || (At(s.board, q) == MINE && !At(s.flags, q)))
    ensures Inv(s) && !s.gameover ==> Inv(t) && !t.won
  {
    var newrev := Put(s.revealed, p, true);
    var t := s.(gameover := true, revealed := RevealAllOnLose(s.board, s.flags, newrev, s.rows, s.cols));
    assert Inv(s) && !s.gameover ==> Inv(t) by {
      if Inv(s) && !s.gameover {
        // a game in progress still hides a safe cell, which the loss leaves hidden
        assert !AllSafeRevealed(s.board, s.revealed, s.rows, s.cols);
        var q :| InBounds(s.rows, s.cols, q) && At(s.board, q) != MINE && !At(s.revealed, q);
        assert !At(t.revealed, q);
        assert At(t.revealed, p);
      }
    }
    t
  }

  // ---------------------------------------------------------------------------
  // revealcell (source lines 89-110) with revealEmpty (112-133)

  /** A click that passes `revealcell`'s guard. */
  predicate Clickable(s: State, p: Pos)
    requires Shaped(s) && InBounds(s.rows, s.cols, p)
  {
    !s.gameover && !At(s.revealed, p) && !At(s.flags, p)
  }

  /** A safe reveal that adds only unflagged non-mine cells keeps the invariant. */
  lemma SettleKeepsInv(s: State, newrev: Mask)
    requires Inv(s) && !s.gameover && Rect(newrev, s.rows, s.cols)
    requires Grows(s.revealed, newrev, s.rows, s.cols)
    requires forall q :: InBounds(s.rows, s.cols, q) && At(newrev, q) && !At(s.revealed, q) ==>
               !At(s.flags, q) && At(s.board, q) != MINE
    ensures Inv(Settle(s, newrev))
  {
  }

  /**
   * The non-mine part of `revealcell`: the clicked cell is revealed and, when
   * it is a zero, `revealEmpty` floods from it.
   */
  method Uncover(s: State, p: Pos) returns (newrev: Mask)
    requires Sound(s) && InBounds(s.rows, s.cols, p)
    requires !At(s.flags, p) && At(s.board, p) != MINE
    ensures Rect(newrev, s.rows, s.cols)
    ensures At(newrev, p)
    ensures Grows(s.revealed, newrev, s.rows, s.cols)
    ensures forall q :: InBounds(s.rows, s.cols, q) && At(newrev, q) && !At(s.revealed, q) ==>
              !At(s.flags, q) && At(s.board, q) != MINE
    ensures At(s.board, p) != 0 ==> newrev == Put(s.revealed, p, true)
    ensures At(s.board, p) == 0 ==>
              forall z, n ::
                (InBounds(s.rows, s.cols, z) && (z == p || (At(newrev, z) && !At(s.revealed, z))) &&
                 At(s.board, z) == 0 && InBounds(s.rows, s.cols, n) && Adjacent(z, n) && !At(s.flags, n))
                ==> At(newrev, n)
    ensures At(s.board, p) == 0 ==>
              exists order :: Chain(s.board, s.flags, s.revealed, s.rows, s.cols, p, order) &&
                              Bounded(s.revealed, newrev, s.rows, s.cols, order)
  {
    newrev := Put(s.revealed, p, true);
    if At(s.board, p) == 0 {
      ghost var clicked := newrev;
      newrev := FloodFill(s.board, s.flags, newrev, s.rows, s.cols, p);
      forall z | InBounds(s.rows, s.cols, z) && At(newrev, z) && !At(s.revealed, z) && z != p
        ensures At(newrev, z) && !At(clicked, z)
      {
      }
      // a chain and bound against the mask with `p` set carry over to the pre-click mask
      ghost var order :| Chain(s.board, s.flags, clicked, s.rows, s.cols, p, order) &&
                         Bounded(clicked, newrev, s.rows, s.cols, order);
      assert Bounded(s.revealed, newrev, s.rows, s.cols, order) by {
        forall q | InBounds(s.rows, s.cols, q) && At(newrev, q) && !At(s.revealed, q)
          ensures Touches(order, q)
        {
          if q == p {
            assert order[0] == q;
          }
        }
      }
      assert Chain(s.board, s.flags, s.revealed, s.rows, s.cols, p, order);
    }
  }

  /**
   * `revealcell(r, c)`. A no-op when the game is over or the cell is already
   * revealed or flagged. A mine loses: every unflagged mine is revealed and
   * nothing else changes. A safe cell is revealed (a zero floods its region,
   * never revealing a flag or a mine), and the game is won exactly when every
   * safe cell is then revealed.
   */
  method Reveal(s: State, p: Pos) returns (t: State)
    requires Sound(s) && InBounds(s.rows, s.cols, p)
    ensures !Clickable(s, p) ==> t == s
    ensures t.rows == s.rows && t.cols == s.cols && t.mines == s.mines && t.board == s.board
    ensures t.flags == s.flags && t.minesLeft == s.minesLeft
    ensures Rect(t.revealed, s.rows, s.cols)
    ensures forall q :: InBounds(s.rows, s.cols, q) && At(s.revealed, q) ==> At(t.revealed, q)
    ensures forall q :: InBounds(s.rows, s.cols, q) && At(t.revealed, q) && !At(s.revealed, q) ==> !At(s.flags, q)
    ensures Clickable(s, p) && At(s.board, p) == MINE ==>
              && t.gameover && t.won == s.won
              && forall q :: InBounds(s.rows, s.cols, q) ==>
                   At(t.revealed, q) == (At(s.revealed, q) || (At(s.board, q) == MINE && !At(s.flags, q)))
    ensures Clickable(s, p) && At(s.board, p) != MINE ==>
              && At(t.revealed, p)
              && (forall q :: InBounds(s.rows, s.cols, q) && At(t.revealed, q) && !At(s.revealed, q) ==>
                    At(s.board, q) != MINE)
              && (Mines(s.board, s.rows, s.cols) == s.mines ==>
                    (t.gameover <==> AllSafeRevealed(s.board, t.revealed, s.rows, s.cols)))
              && (t.won <==> s.won || t.gameover)
    ensures Clickable(s, p) && At(s.board, p) != MINE && (s.mines < 0 || s.mines > s.rows * s.cols) ==>
              !t.gameover && t.won == s.won
    ensures Clickable(s, p) &&
            (forall q :: InBounds(s.rows, s.cols, q) ==> At(s.board, q) == 0 && !At(s.flags, q) && !At(s.revealed, q))
            ==> forall q :: InBounds(s.rows, s.cols, q) ==> At(t.revealed, q)
    ensures Clickable(s, p) && At(s.board, p) > 0 ==> t.revealed == Put(s.revealed, p, true)
    ensures Clickable(s, p) && At(s.board, p) == 0 ==>
              forall z, n ::
                (InBounds(s.rows, s.cols, z) && (z == p || (At(t.revealed, z) && !At(s.revealed, z))) &&
                 At(s.board, z) == 0 && InBounds(s.rows, s.cols, n) && Adjacent(z, n) && !At(s.flags, n))
                ==> At(t.revealed, n)
    ensures Clickable(s, p) && At(s.board, p) == 0 ==>
              exists order :: Chain(s.board, s.flags, s.revealed, s.rows, s.cols, p, order) &&
                              Bounded(s.revealed, t.revealed, s.rows, s.cols, order)
    ensures Inv(s) ==> Inv(t)
    ensures Shaped(t) && !Clickable(t, p)
  {
    if s.gameover || At(s.revealed, p) || At(s.flags, p) {
      return s;
    }
    if At(s.board, p) == MINE {
      t := Lose(s, p);
      return;
    }
    var newrev := Uncover(s, p);
    if forall q :: InBounds(s.rows, s.cols, q) ==> At(s.board, q) == 0 && !At(s.flags, q) && !At(s.revealed, q) {
      ClosureCoversEmptyBoard(s.board, s.flags, s.revealed, newrev, s.rows, s.cols, p);
    }
    t := Settle(s, newrev);
    if Inv(s) {
      SettleKeepsInv(s, newrev);
    }
  }

  /** On the strip `0 1 * 1` every chain from the left end stays there: it is the only zero cell. */
  lemma StripChainIsStart(order: seq<Pos>)
    requires Chain([[0, 1, MINE, 1]], [[false, false, false, false]], [[false, false, false, false]], 1, 4,
                   Pos(0, 0), order)
    ensures forall k :: 0 <= k < |order| ==> order[k] == Pos(0, 0)
  {
    var board: Board := [[0, 1, MINE, 1]];
    forall k | 0 < k < |order|
      ensures order[k] == Pos(0, 0)
    {
      var q := order[k];
      assert InBounds(1, 4, q) && At(board, q) == 0;
      assert q.c == 0 || q.c == 1 || q.c == 2 || q.c == 3;
    }
  }

  /**
   * The strip `0 1 * 1` with one mine and nothing revealed or flagged: any
   * mask meeting `Reveal`'s postconditions for a click on the left end holds
   * exactly the two left cells, so the safe cell on the right stays hidden
   * and the click does not win.
   */
  lemma StripZeroClick(out: Mask)
    requires Rect(out, 1, 4) && At(out, Pos(0, 0))
    requires Closed([[0, 1, MINE, 1]], [[false, false, false, false]], [[false, false, false, false]], out, 1, 4, Pos(0, 0))
    requires exists order :: Chain([[0, 1, MINE, 1]], [[false, false, false, false]], [[false, false, false, false]], 1, 4,
                                   Pos(0, 0), order) &&
                             Bounded([[false, false, false, false]], out, 1, 4, order)
    ensures out == [[true, true, false, false]]
    ensures !AllSafeRevealed([[0, 1, MINE, 1]], out, 1, 4)
  {
    var board: Board, none: Mask := [[0, 1, MINE, 1]], [[false, false, false, false]];
    var order :| Chain(board, none, none, 1, 4, Pos(0, 0), order) && Bounded(none, out, 1, 4, order);
    StripChainIsStart(order);
    assert At(out, Pos(0, 1)) by {
      assert Adjacent(Pos(0, 0), Pos(0, 1));
    }
    forall c | 2 <= c < 4
      ensures !At(out, Pos(0, c))
    {
      if At(out, Pos(0, c)) {
        // it would touch an entry of the chain, and every entry is the left end
        assert Touches(order, Pos(0, c));
        var k :| 0 <= k < |order| && (order[k] == Pos(0, c) || Adjacent(order[k], Pos(0, c)));
        assert false;
      }
    }
    GridExt(out, [[true, true, false, false]], 1, 4);
    assert At(board, Pos(0, 3)) != MINE && !At(out, Pos(0, 3));
  }

  // ---------------------------------------------------------------------------
  // toggleflag (source lines 136-144)

  /**
   * `toggleflag(e, r, c)`: a no-op when the game is over or the cell is
   * revealed; otherwise flips that one flag and recomputes the counter as
   * `mines` minus the number of flags, without checking it against the mines.
   */
  function ToggleFlag(s: State, p: Pos): (t: State)
    requires Shaped(s) && InBounds(s.rows, s.cols, p)
    ensures Shaped(t)
    ensures s.gameover || At(s.revealed, p) ==> t == s
    ensures !s.gameover && !At(s.revealed, p) ==>
              && t == s.(flags := t.flags, minesLeft := t.minesLeft)
              && At(t.flags, p) == !At(s.flags, p)
              && (forall q :: InBounds(s.rows, s.cols, q) && q != p ==> At(t.flags, q) == At(s.flags, q))
              && t.minesLeft == s.mines - Count(t.flags)
              && (s.minesLeft == s.mines - Count(s.flags) ==>
                    t.minesLeft == if At(s.flags, p) then s.minesLeft + 1 else s.minesLeft - 1)
    ensures Inv(s) ==> Inv(t)
  {
    if s.gameover || At(s.revealed, p) then s
    else
      var newFlags := Put(s.flags, p, !At(s.flags, p));
      CountPut(s.flags, p, !At(s.flags, p));
      s.(flags := newFlags, minesLeft := s.mines - Count(newFlags))
  }

  /** Toggling the same cell twice restores the flags and the counter. */
  lemma ToggleTwice(s: State, p: Pos)
    requires Shaped(s) && InBounds(s.rows, s.cols, p)
    requires s.minesLeft == s.mines - Count(s.flags)
    ensures ToggleFlag(ToggleFlag(s, p), p) == s
  {
    if !s.gameover && !At(s.revealed, p) {
      var once := ToggleFlag(s, p);
      var twice := ToggleFlag(once, p);
      forall i, j | 0 <= i < s.rows && 0 <= j < s.cols
        ensures twice.flags[i][j] == s.flags[i][j]
      {
        assert At(twice.flags, Pos(i, j)) == At(s.flags, Pos(i, j));
      }
      MaskExt(twice.flags, s.flags, s.rows, s.cols);
    }
  }

  /** A sequence of right-clicks, applied in order. */
  function ToggleAll(s: State, ps: seq<Pos>): (t: State)
    requires Shaped(s)
    requires forall k :: 0 <= k < |ps| ==> InBounds(s.rows, s.cols, ps[k])
    ensures Shaped(t) && t.rows == s.rows && t.cols == s.cols
    decreases |ps|
  {
    if |ps| == 0 then s else ToggleAll(ToggleFlag(s, ps[0]), ps[1..])
  }

  /**
   * Flagging `k` distinct hidden, unflagged cells of a game in progress lowers
   * the counter by exactly `k`, even when `k` exceeds the number of mines.
   */
  lemma {:induction false} FlagMany(s: State, ps: seq<Pos>)
    requires Shaped(s) && !s.gameover
    requires s.minesLeft == s.mines - Count(s.flags)
    requires forall k :: 0 <= k < |ps| ==>
               InBounds(s.rows, s.cols, ps[k]) && !At(s.revealed, ps[k]) && !At(s.flags, ps[k])
    requires forall k, l :: 0 <= k < l < |ps| ==> ps[k] != ps[l]
    ensures ToggleAll(s, ps).minesLeft == s.minesLeft - |ps|
    ensures ToggleAll(s, ps).minesLeft == s.mines - Count(ToggleAll(s, ps).flags)
    decreases |ps|
  {
    if |ps| > 0 {
      var next := ToggleFlag(s, ps[0]);
      forall k | 0 <= k < |ps[1..]|
        ensures InBounds(next.rows, next.cols, ps[1..][k]) && !At(next.revealed, ps[1..][k]) && !At(next.flags, ps[1..][k])
      {
        assert ps[1..][k] == ps[k + 1] && ps[k + 1] != ps[0];
      }
      FlagMany(next, ps[1..]);
    }
  }

}

=== FILE: grid.dfy ===
/**
 * Grid geometry shared by the board, the revealed mask and the flag mask:
 * coordinates, rectangular grids, single-cell updates, the eight neighbour
 * offsets, and counting the true cells of a boolean mask.
 */
module Grid {

  /** A cell coordinate: row `r`, column `c`. */
  datatype Pos = Pos(r: int, c: int)

  /** Cell values: `MINE`, or the number of adjacent mines. */
  type Board = seq<seq<int>>

  /** A boolean overlay of the board (revealed cells, flags, ...). */
  type Mask = seq<seq<bool>>

  /** The sentinel the source stores in a mine cell. */
  const MINE: int := -1

  predicate InBounds(rows: nat, cols: nat, p: Pos) {
    0 <= p.r < rows && 0 <= p.c < cols
  }

  /** `g` has `rows` rows of `cols` cells each. */
  predicate Rect<T>(g: seq<seq<T>>, rows: nat, cols: nat) {
    |g| == rows && forall i :: 0 <= i < rows ==> |g[i]| == cols
  }

  function At<T>(g: seq<seq<T>>, p: Pos): T
    requires 0 <= p.r < |g| && 0 <= p.c < |g[p.r]|
  {
    g[p.r][p.c]
  }

  /** `g` with the one cell at `p` replaced by `v` (the source's copy-then-assign). */
  function Put<T>(g: seq<seq<T>>, p: Pos, v: T): (h: seq<seq<T>>)
    requires 0 <= p.r < |g| && 0 <= p.c < |g[p.r]|
    ensures |h| == |g|
    ensures forall i :: 0 <= i < |g| ==> |h[i]| == |g[i]|
    ensures forall q: Pos :: 0 <= q.r < |g| && 0 <= q.c < |g[q.r]| ==>
              At(h, q) == if q == p then v else At(g, q)
  {
    g[p.r := g[p.r][p.c := v]]
  }

  /** A grid of `rows` by `cols` copies of `v` (`Array(r).fill(null).map(() => Array(c).fill(v))`). */
  function Fill<T>(rows: nat, cols: nat, v: T): (g: seq<seq<T>>)
    ensures Rect(g, rows, cols)
    ensures forall q: Pos :: InBounds(rows, cols, q) ==> At(g, q) == v
  {
    seq(rows, i => seq(cols, j => v))
  }

  // ---------------------------------------------------------------------------
  // Neighbourhood

  /** The eight neighbour offsets, in the order the source lists them. */
  const Dirs: seq<(int, int)> :=
    [(-1, -1), (-1, 0), (-1, 1),
     (0, -1),           (0, 1),
     (1, -1),  (1, 0),  (1, 1)]

  function Shift(p: Pos, d: (int, int)): Pos {
    Pos(p.r + d.0, p.c + d.1)
  }

  function Offset(p: Pos, q: Pos): (int, int) {
    (q.r - p.r, q.c - p.c)
  }

  /** `q` is one of the up to eight cells touching `p` by side or corner. */
  predicate Adjacent(p: Pos, q: Pos) {
    p != q && -1 <= q.r - p.r <= 1 && -1 <= q.c - p.c <= 1
  }

  /** The offsets in `Dirs` are exactly the offsets of adjacent cells, each listed once. */
  lemma DirsAreTheNeighbours(p: Pos, q: Pos)
    ensures Adjacent(p, q) <==> Offset(p, q) in Dirs
    ensures forall k :: 0 <= k < |Dirs| ==> Offset(p, Shift(p, Dirs[k])) == Dirs[k]
    ensures forall k, l :: 0 <= k < l < |Dirs| ==> Dirs[k] != Dirs[l]
  {
    if Adjacent(p, q) {
      var dr, dc := q.r - p.r, q.c - p.c;
      assert dr == -1 || dr == 0 || dr == 1;
      assert dc == -1 || dc == 0 || dc == 1;
      assert (dr, dc) != (0, 0);
    }
  }

  // ---------------------------------------------------------------------------
  // Counting the true cells of a mask (`flat().filter(Boolean).length`)

  function Bit(b: bool): nat {
    if b then 1 else 0
  }

  function CountRow(row: seq<bool>): (n: nat)
    ensures n <= |row|
  {
    if |row| == 0 then 0 else Bit(row[0]) + CountRow(row[1..])
  }

  function Count(g: Mask): nat {
    if |g| == 0 then 0 else CountRow(g[0]) + Count(g[1..])
  }

  lemma {:induction false} CountRowPut(row: seq<bool>, j: nat, v: bool)
    requires j < |row|
    ensures CountRow(row[j := v]) == CountRow(row) - Bit(row[j]) + Bit(v)
  {
    if j == 0 {
      assert row[j := v][1..] == row[1..];
    } else {
      assert row[j := v][1..] == row[1..][j - 1 := v];
      CountRowPut(row[1..], j - 1, v);
    }
  }

  /** Writing one cell changes the count by exactly that cell's change. */
  lemma {:induction false} CountPut(g: Mask, p: Pos, v: bool)
    requires 0 <= p.r < |g| && 0 <= p.c < |g[p.r]|
    ensures Count(Put(g, p, v)) == Count(g) - Bit(At(g, p)) + Bit(v)
  {
    if p.r == 0 {
      CountRowPut(g[0], p.c, v);
      assert Put(g, p, v)[1..] == g[1..];
    } else {
      assert Put(g, p, v)[1..] == Put(g[1..], Pos(p.r - 1, p.c), v);
      CountPut(g[1..], Pos(p.r - 1, p.c), v);
    }
  }

  /** A rectangular mask has at most rows * cols true cells. */
  lemma {:induction false} CountBound(g: Mask, rows: nat, cols: nat)
    requires Rect(g, rows, cols)
    ensures Count(g) <= rows * cols
  {
    if rows > 0 {
      CountBound(g[1..], rows - 1, cols);
      assert (rows - 1) * cols + cols == rows * cols;
    }
  }

  lemma {:induction false} CountRowMono(a: seq<bool>, b: seq<bool>)
    requires |a| == |b|
    requires forall j :: 0 <= j < |a| ==> a[j] ==> b[j]
    ensures CountRow(a) <= CountRow(b)
    ensures CountRow(a) == CountRow(b) ==> a == b
  {
    if |a| > 0 {
      CountRowMono(a[1..], b[1..]);
      if CountRow(a) == CountRow(b) {
        assert a == [a[0]] + a[1..] && b == [b[0]] + b[1..];
      }
    }
  }

  /**
   * If every true cell of `a` is true in `b`, then `a` counts no more than `b`,
   * and the counts agree only when the masks are equal.
   */
  lemma {:induction false} CountMono(a: Mask, b: Mask, rows: nat, cols: nat)
    requires Rect(a, rows, cols) && Rect(b, rows, cols)
    requires forall i, j :: 0 <= i < rows && 0 <= j < cols ==> a[i][j] ==> b[i][j]
    ensures Count(a) <= Count(b)
    ensures Count(a) == Count(b) ==> a == b
  {
    if rows > 0 {
      CountRowMono(a[0], b[0]);
      CountMono(a[1..], b[1..], rows - 1, cols);
      if Count(a) == Count(b) {
        assert a == [a[0]] + a[1..] && b == [b[0]] + b[1..];
      }
    }
  }

  lemma {:induction false} CountRowComplement(a: seq<bool>, b: seq<bool>)
    requires |a| == |b|
    requires forall j :: 0 <= j < |a| ==> a[j] == !b[j]
    ensures CountRow(a) + CountRow(b) == |a|
  {
    if |a| > 0 {
      CountRowComplement(a[1..], b[1..]);
    }
  }

  /** Two complementary masks together count every cell once. */
  lemma {:induction false} CountComplement(a: Mask, b: Mask, rows: nat, cols: nat)
    requires Rect(a, rows, cols) && Rect(b, rows, cols)
    requires forall i, j :: 0 <= i < rows && 0 <= j < cols ==> a[i][j] == !b[i][j]
    ensures Count(a) + Count(b) == rows * cols
  {
    if rows > 0 {
      CountRowComplement(a[0], b[0]);
      CountComplement(a[1..], b[1..], rows - 1, cols);
      assert (rows - 1) * cols + cols == rows * cols;
    }
  }

  lemma {:induction false} CountRowNone(row: seq<bool>)
    requires forall j :: 0 <= j < |row| ==> !row[j]
    ensures CountRow(row) == 0
  {
    if |row| > 0 {
      CountRowNone(row[1..]);
    }
  }

  /** A mask with no true cell counts zero. */
  lemma {:induction false} CountNone(g: Mask, rows: nat, cols: nat)
    requires Rect(g, rows, cols)
    requires forall i, j :: 0 <= i < rows && 0 <= j < cols ==> !g[i][j]
    ensures Count(g) == 0
  {
    if rows > 0 {
      CountRowNone(g[0]);
      CountNone(g[1..], rows - 1, cols);
    }
  }


  /** Masks of the same shape that agree cell by cell are equal. */
  lemma MaskExt(a: Mask, b: Mask, rows: nat, cols: nat)
    requires Rect(a, rows, cols) && Rect(b, rows, cols)
    requires forall i, j :: 0 <= i < rows && 0 <= j < cols ==> a[i][j] == b[i][j]
    ensures a == b
  {
    CountMono(a, b, rows, cols);
    CountMono(b, a, rows, cols);
  }

  /** Grids of the same shape that agree cell by cell are equal. */
  lemma GridExt<T>(a: seq<seq<T>>, b: seq<seq<T>>, rows: nat, cols: nat)
    requires Rect(a, rows, cols) && Rect(b, rows, cols)
    requires forall q: Pos :: InBounds(rows, cols, q) ==> At(a, q) == At(b, q)
    ensures a == b
  {
    forall i | 0 <= i < rows
      ensures a[i] == b[i]
    {
      forall j | 0 <= j < cols
        ensures a[i][j] == b[i][j]
      {
        assert At(a, Pos(i, j)) == At(b, Pos(i, j));
      }
    }
  }

}

=== FILE: wrappers.dfy ===
/** A result that may be missing: used where the engine's random source can run dry. */
module Wrappers {

  datatype Option<+T> = None | Some(value: T)

}
